=== FILE: README.md ===
# Spring application master: a Dafny model

This project models the core of Spring's per-application master process, `Spring::Application` in `lib/spring/application.rb`. The master keeps a booted Rails application in memory. Each time the manager hands it a client, it:

- performs a handshake;
- runs the command's one-time setup;
- forks a worker that becomes the command;
- leaves a reaper thread to relay the worker's exit status.

When the watcher reports that the application's files changed, the master exits.

The model is a functional state machine. Operating-system effects never happen; they are entries of a trace (`Trace.Effect`). Every outside call `serve` makes, except `watcher.add` inside `setup` and the closes of the streams and the client, is an outcome field of a `Serve.Request`. The calls include the manager write, the three `recv_io`, the length line, the payload, the setup hook, the reloader, `fork`, the pid write, the reaper's `Thread.new` and the rescue write. For the setup hook, the reloader and `fork`, the request also says whether the exception raised is outside `StandardError` (a `LoadError`, `SyntaxError` or `NotImplementedError`, say); such an exception is not caught by `rescue => e` and leaves `serve` without closing or writing anything. `JSON.load` and `Spring.command` are function-valued fields of `Serve.Config`. The reaper thread is a later event of the master's event sequence.

Modules, following the program's structure:

- `Base`: shared vocabulary. This includes descriptors, identified by the request they belong to: the client connection, or stream slot 0, 1 or 2.
- `Features`: `loaded_application_features`.
- `SetupCache`: `setup` and the watched paths.
- `Framing`: the length line followed by N bytes on the client connection.
- `Worker`: what the forked child does, in order, and the bin-path choice.
- `Trace`: the effects and the views of them: descriptors received and closed, lines written to the manager and to each client, and setup hooks run.
- `Serve`: `serve` for one request. `ServeProps` holds its properties.
- `Master`: `run`'s loop as a fold over wake-up and reaper events.
- `MasterProps`: the invariant the loop keeps.
- `MasterRuns`: what holds of every run.

## Model

| member | source | states |
|---|---|---|
| Features.LoadedApplicationFeatures | lib/spring/application.rb:129-131 | Every selected feature starts with the application root, and the selection is no longer than `$LOADED_FEATURES`. |
| Features.FeaturesSelection | lib/spring/application.rb:129-131 | The selection is the subsequence of `$LOADED_FEATURES` at strictly ascending positions, taken at exactly the positions whose path starts with the root, so load order is kept. |
| Features.FeaturesMembers | lib/spring/application.rb:129-131 | A path is selected if and only if it is loaded and starts with the root. |
| Features.FeaturesIdempotent | lib/spring/application.rb:129-131 | Filtering an already filtered list returns it unchanged. |
| Features.FeaturesAppend | lib/spring/application.rb:129-131 | The filter of features loaded in two batches is the filter of the first batch followed by the filter of the second. |
| SetupCache.Setup | lib/spring/application.rb:113-121 | The command's class is always recorded. The hook runs exactly when the class was not recorded before and the command responds to `setup`. `setup` raises exactly when the hook ran and raised. The watched paths only grow. They change only after a hook returned normally, and then they gain every loaded feature under the root and nothing else. |
| SetupCache.SetupIdempotent | lib/spring/application.rb:113-118 | After one `setup` for a class, whether its hook returned or raised, every later `setup` for that class is a no-op that runs no hook. |
| SetupCache.SetupWithoutHook | lib/spring/application.rb:114-119 | A command without `setup` is recorded, its hook does not run, and the watcher is untouched. |
| Framing.ReadExactly | lib/spring/application.rb:62 | `read(n)` with a short read taken as a failure: it yields a value exactly when n bytes are available, and that value is the first n bytes. |
| Framing.SplitLine | lib/spring/application.rb:62 | `gets` without the line's trailing line feed, which `to_i` ignores: it returns the bytes before the first line feed and leaves the rest after it. At the end of the stream without a line feed it returns the remaining bytes as the line. It returns nil exactly when nothing is left. |
| Framing.DecimalRoundTrip | lib/spring/application.rb:62 | Reading back the decimal digits of N gives N. |
| Framing.FrameRoundTrip | lib/spring/application.rb:62 | A length line followed by the payload, whatever comes after, is read back as exactly that payload, and the rest stays unread. |
| Serve.Shift | lib/spring/application.rb:63 | `args.shift` yields the first element and the rest. On an empty list it yields nil and the empty list. |
| Serve.Handle | lib/spring/application.rb:58-108 | `serve` itself. A dispatched worker implies that all three streams arrived, that `fork` returned its pid, and that the pid write and `Thread.new` succeeded. The recorded classes and the watched paths only grow. Its full behaviour is stated by `Serve.HandleShape` and `ServeProps.ServeDispatchedIff`. |
| Serve.Greet | lib/spring/application.rb:59-63 | The handshake's effects start with the manager line and the streams that arrived, followed by at most the length read and the payload read. When it yields a command, all three streams arrived, a length line was read that fits the payload, and both reads happened. `ServeProps.GreetResolves` states when it yields one. |
| Serve.Rescue | lib/spring/application.rb:103-107 | The rescue clause comes after what already happened, keeps the cache, and re-raises: the outcome is a rescued raise carrying the pid already reported, if any. The original cause survives exactly when the write of `1` succeeded; otherwise the write's error replaces it. What it closes is stated by `ServeProps.RescueTailCloses`. |
| ServeProps.RescueTailLines | lib/spring/application.rb:104-106 | The rescue clause writes `1` to its own client exactly when that write succeeds, and nothing to the manager or to other clients. |
| Serve.HandleShape | lib/spring/application.rb:58-108 | Every run of `serve` consists of three parts: the manager line and the streams that arrived; then effects drawn only from frame reads, the setup hook, the reload barrier and the fork (their order is stated by `ServeProps.ServeLaunchOrder`); then the ending its outcome determines: the pid line and the reaper's start on success; otherwise the pid line if it was written before the reaper failed to start, followed by the rescue clause when the exception was a `StandardError` and by nothing when it was not. The setup cache only grows, and at most one hook runs, for a class not recorded before. |
| ServeProps.ServeDescriptors | lib/spring/application.rb:61-107 | `serve` receives exactly the first streams that arrived, in slot order. A dispatched request closes nothing, and neither does one whose exception escaped the rescue clause. Otherwise the rescue clause closes all three streams only when all three arrived, then closes the client only when `1` was written to it. A failure before all three streams arrived is always rescued. |
| ServeProps.ServeWrites | lib/spring/application.rb:59-107 | The manager sees the empty line and then the pid on success. After a failure it sees at most the empty line, followed by the pid when only `Thread.new` failed. The client sees nothing from `serve` on success, and `1` after a failure exactly when the rescue clause ran and the write succeeded. No other client is written to. |
| ServeProps.RescueTailCloses | lib/spring/application.rb:103-107 | The rescue clause closes the three streams only when they were all received, and then the client only when writing `1` succeeded. |
| ServeProps.PartialStreamsLeftOpen | lib/spring/application.rb:61-106 | When one or two streams arrived before a transfer failed, the rescue clause runs and every stream that arrived is received and never closed: the only descriptor closed is the client, and only when the write of `1` succeeds. |
| ServeProps.HandshakeOrder | lib/spring/application.rb:59-63 | The empty manager line comes before any stream. The streams arrive in slot order. The length line is read only after all three streams, and the payload right after it. The handshake is a prefix of the whole run. |
| ServeProps.HandshakePrefix | lib/spring/application.rb:59-108 | Everything `serve` does after the handshake comes after it: the handshake's effects are a prefix of the whole run, whether it raised or went on to setup and fork. |
| ServeProps.ServeLaunchOrder | lib/spring/application.rb:58-101 | After a successful handshake the effects run in the source's order: the setup hook when it runs; then, unless it raised, the reload barrier when the reloader succeeds, with the fork right after it; then the ending. The barrier is passed exactly when the handshake succeeded, the hook did not raise and the reloader returned. A dispatched request's trace is exactly: manager line, streams, length read, payload read, the hook if it ran, the barrier, the fork of a child running the named command with the remaining arguments, the pid line, the reaper's start. |
| Serve.LaunchOrder | lib/spring/application.rb:65-101 | Once the command is known: the setup hook if it ran, then, unless it raised, the barrier once the reloader succeeded and the fork once `fork` returned, then the attempt's ending. |
| ServeProps.ServeHandsOff | lib/spring/application.rb:70-101 | On success the fork comes first, then the pid line to the manager, and then the reaper's start, which is the last effect. |
| ServeProps.ServeDispatchedIff | lib/spring/application.rb:58-108 | A worker is dispatched if and only if every step succeeds, `Thread.new` included, as stated by an independent condition, `Succeeds`. It then reports the pid `fork` returned. Otherwise `serve` raises. The rescue clause runs exactly when the first failing step raised a `StandardError` (`Escapes` says when it did not). The pid had already been written exactly when every step up to `manager.puts pid` succeeded (`Launched`). When the rescue clause ran and `1` cannot be written, that write error replaces the original one. An escaping exception comes only from the setup hook, the reloader or `fork`. |
| ServeProps.GreetResolves | lib/spring/application.rb:59-63 | The handshake yields a command exactly when the manager write, all three transfers, the length line, the payload read, its decoding and the lookup succeed, and that command is the one the first argument names. |
| ServeProps.DispatchOutcome | lib/spring/application.rb:67-107 | After setup, `serve` dispatches exactly when the reloader, `fork`, the pid write and `Thread.new` succeed. The pid is already reported on a raise exactly when only `Thread.new` failed. Only the reloader and `fork` can raise past the rescue clause. |
| ServeProps.ParsedRequestReachesWorker | lib/spring/application.rb:62-101 | When every call succeeds and the decoded payload's first element names a known command, `serve` dispatches the pid `fork` returned. It reads exactly the announced number of bytes, and the forked child runs that command with the remaining arguments as its `ARGV`. |
| ServeProps.FramedRequestReachesWorker | lib/spring/application.rb:62-76 | A client that sends a frame of the encoded arguments gets a worker. That worker runs the command named by the first argument, with the remaining arguments as its `ARGV`. |
| Worker.BinPathArgs | lib/spring/application.rb:84-87 | `Gem.bin_path` gets `gem_name` when the command has a non-nil one, and `exec_name` otherwise, together with `exec_name`. |
| Worker.RunCommand | lib/spring/application.rb:81-90 | A callable command is called. Any other command loads the resolved bin path. |
| Worker.ResetSignals | lib/spring/application.rb:73 | Every ignored signal is reset to its default, in order. |
| Worker.InvokeAfterForkCallbacks | lib/spring/application.rb:123-127 | Every registered callback is called once, in registration order. |
| Worker.Prepare | lib/spring/application.rb:71-77 | Before the callbacks the child does, in this order: a new session; standard output, error and input rebound to the three streams; each ignored signal reset to its default, in order; a new database connection exactly when ActiveRecord is loaded; `ARGV` replaced; `srand`. It runs no callback and no command in that part. |
| Worker.ChildActions | lib/spring/application.rb:70-90 | The fork block: it starts with the whole of `Worker.Prepare` (new session, rebinds, signal resets, reconnect, ARGV, `srand`), runs every registered after-fork callback in order right after the preparation, and ends with the command. `Worker.ChildCallbacksThenCommand` states that these are the only callbacks and the only command run. |
| Worker.ChildRebindsInOrder | lib/spring/application.rb:71-72 | The child first starts a new session. It then rebinds standard output, error and input to the three streams, in the order they were received. |
| Worker.ChildCallbacksThenCommand | lib/spring/application.rb:76-90 | Exactly the registered callbacks run, in order, and all of them after `ARGV` is replaced. The command runs last and only last. |
| Master.ServeNext | lib/spring/application.rb:53 | Accepting a client records it as the next request, and the trace grows by its connection. A dispatched worker adds a waiting reaper. A failure leaves the reapers as they were, and a request whose exception escaped the rescue clause is recorded as escaped. |
| Master.Reap | lib/spring/application.rb:96-101 | A reaper's event acts only on a request that is waiting. It removes that request from the waiting set and leaves the cache, the request count and the escaped requests unchanged. |
| Master.ReapEffects | lib/spring/application.rb:96-101 | The reaper waits for its worker's pid first, then closes streams 0, 1 and 2 in order, then writes the status and closes the client. When the status write fails, nothing follows the stream closes. `MasterProps.ReaperOrder` states the order in terms of effect kinds. |
| Master.Step | lib/spring/application.rb:47-55 | A stale wake-up exits without serving anyone. An accept failure crashes the master. A halted master does nothing more. A reaper's event leaves the master running. An accepted client is served: the master keeps running when `serve` dispatched a worker, and crashes with `serve`'s exception when it raised, since `run` has no rescue. |
| Master.Loop | lib/spring/application.rb:47-55 | Over any events, the trace and the request count only grow, and so do the recorded classes and the watched paths. |
| Master.Run | lib/spring/application.rb:44-56 | The watcher is started before anything else, and the paths `start` handed it stay watched. |
| MasterProps.StepKeepsGood | lib/spring/application.rb:47-108 | Every loop turn keeps the invariant `Good`: descriptors are received once and closed at most once; each closed descriptor was received; a request whose three streams arrived, that no reaper waits on and whose exception did not escape, has them closed; a waiting reaper's descriptors are all open; each client gets at most one status line; each class's hook ran at most once. |
| MasterProps.LoopKeepsGood | lib/spring/application.rb:47-55 | Any sequence of events keeps `Good`. |
| MasterProps.RunGood | lib/spring/application.rb:44-56 | Every state `run` reaches satisfies `Good`. |
| MasterProps.ReaperOrder | lib/spring/application.rb:97-100 | The reaper waits first, then closes the streams before writing the status, then writes the status before closing the client. The status is written only when the write succeeds. |
| MasterRuns.RunClosesOnce | lib/spring/application.rb:96-107 | In any run, a descriptor is closed at most once, so the rescue clause and the reaper never both close it. A closed descriptor was received. |
| MasterRuns.RunAnswersOnce | lib/spring/application.rb:99-106 | In any run, a client gets at most one status line, and exactly one if it was closed. A client whose worker is still running has received none. |
| MasterRuns.RunStreamsDisposed | lib/spring/application.rb:96-104 | A request whose three streams all arrived, that no reaper waits on and whose exception did not escape the rescue clause, has all three closed. A stream is closed only if all three of its request's streams arrived. A waiting request's descriptors are all open. |
| MasterRuns.RunHooksOnce | lib/spring/application.rb:113-119 | In any run, each class's setup hook runs at most once, and only for recorded classes. |
| MasterRuns.ReapReports | lib/spring/application.rb:93-101 | A finishing reaper waits for the pid that was reported to the manager earlier. It closes the three streams. It writes the exit status as its client's only line, and closes the client exactly when that write succeeded. |
| MasterRuns.ReapCloses | lib/spring/application.rb:97-100 | A finishing reaper whose client is still open closes all three streams of its request. It closes the client exactly when the status write succeeded. |
| MasterRuns.ReapLines | lib/spring/application.rb:93-100 | A finishing reaper's client gets the exit status as its only line, or no line when the write failed, and the pid it waited for had been written to the manager. |
| MasterRuns.ReapStartsWaiting | lib/spring/application.rb:97 | A reaper's first effect, right after everything that came before, is `Process.wait2` on the pid recorded for its request. |
| MasterRuns.HaltedIsFinal | lib/spring/application.rb:50-53 | After `exit` or an escaped exception, later events change nothing. |
| MasterRuns.StaleStops | lib/spring/application.rb:50-51 | The first stale wake-up of a running master makes it exit with its state unchanged, and no later event is served. |
| MasterRuns.RunningServedAll | lib/spring/application.rb:47-55 | A master still running has served exactly one request per client handed over, and it has seen no stale wake-up and no failed accept. |
| MasterRuns.StepRunning | lib/spring/application.rb:47-55 | A turn after which the master still runs started from a running master and was either a reaper finishing or an accepted client whose `serve` dispatched a worker; it served one request exactly when it was an accept. |
| MasterRuns.LoopAppend | lib/spring/application.rb:47-55 | Looping over two batches of events equals looping over the second batch from where the first ended. |

## Left out

- `start` (lib/spring/application.rb:18-42) boots Rails and patches initializers. Only its result, the paths handed to the watcher, enters the model, as `Run`'s `watched` parameter.
- Real operating-system effects are not modelled; each is a trace entry or a request outcome. They include `fork`, `Process.setsid`, `reopen`, `trap`, `Process.wait2`, `IO.select` and `recv_io`.
- Reaper threads are not concurrent here. Each reaper finishing is one event of the master's event sequence, and interleavings inside a step are not modelled.
- `JSON.load` is a foreign library, so it is the parameter `Config.decode`. `Spring.command` is the parameter `Config.lookup`.
- `to_i` on the length line is not modelled as Ruby parses it. The line is given as a count (`Request.lengthLine`, `None` when reading it raised). A payload shorter than that count is treated as a failure. `Framing` models well-formed length lines only.
- What the child does is recorded as a list of actions and not executed. This covers `Gem.bin_path`, `load`, `$0`, ActiveRecord's connection, `srand` and the callbacks' own effects.
- `File.realpath(Rails.root)` is not computed; the resolved root is the parameter `Config.root`.
- The `@fds` workaround for a garbage-collection bug (lib/spring/application.rb:13-15) has no behaviour and is not modelled.
- Exceptions raised by an after-fork callback, by `command.call` or by `close` are not modelled; a close always succeeds.
- A worker killed by a signal has a nil `exitstatus`. It is modelled as the status `None`, and `client.puts(nil)` writes an empty line.
- A failing `client.puts` raises, so the `client.close` after it is skipped (lib/spring/application.rb:99-100 and 105-106). In the rescue clause the write error replaces the original exception (`Serve.Rescue`); in the reaper the thread ends (`Master.ReapEffects`).
- When `recv_io` fails after one or two streams arrived, the assignment at lib/spring/application.rb:61 never completed, so `streams` is nil in the rescue clause (lib/spring/application.rb:104) and those streams are never closed (`ServeProps.PartialStreamsLeftOpen`). The model therefore proves that a stream is closed at most once, and exactly once only when all three arrived (`MasterRuns.RunStreamsDisposed`).
- MasterRuns.RunStreamsDisposed: does not promise that the streams of a request whose exception escaped the rescue clause are closed, because `rescue => e` (lib/spring/application.rb:103) catches only `StandardError` and the master stops with them open.
- SetupCache.Setup: takes `watcher.add` (lib/spring/application.rb:119) never to raise. If it did, `setup` would raise after the hook ran and `serve` would enter the rescue clause; the model has no outcome for that call.
- Asynchronous exceptions (`Interrupt`, another `SignalException`, `NoMemoryError`) that can arrive between any two calls are not modelled. Only the setup hook, the reloader and `fork` may raise outside `StandardError`; every other call is taken to raise an `IOError`, `SystemCallError`, `JSON::ParserError` or another `StandardError`.

=== FILE: base.dfy ===
/** Vocabulary shared by every part of the model: optional values, paths,
    command kinds and commands, bytes, exit codes and the descriptors a request owns. */
module Base {

  /** Ruby's `nil`-or-value, used for optional results of external calls. */
  datatype Option<+T> = None | Some(value: T)

  /** A filesystem path as Ruby holds it in `$LOADED_FEATURES`. */
  type Path = string

  /** The identity of a command's class (`command.class`). */
  type Kind = string

  /** A resolved command, as far as the application looks at it:
      its class, whether it responds to `setup`, to `call` and to `gem_name`,
      its `exec_name`, and the value `gem_name` returns (`None` for nil). */
  datatype Command = Command(
    kind: Kind,
    hasSetup: bool,
    callable: bool,
    execName: string,
    hasGemName: bool,
    gemName: Option<string>)

  type Byte = b: int | 0 <= b < 256

  /** `Process::Status#exitstatus` of a worker that exited normally. */
  type ExitCode = n: int | 0 <= n < 256

  /** Ruby's `String#start_with?` for a single prefix. */
  predicate StartsWith(s: string, prefix: string) {
    |prefix| <= |s| && s[..|prefix|] == prefix
  }

  /** A descriptor the master holds on behalf of request `req`: the client
      connection itself, or the auxiliary stream received in position `slot`. */
  datatype Desc = ClientConn(req: nat) | Stream(req: nat, slot: nat)

  /** The three auxiliary streams of request `id`, in receive order. */
  function Streams(id: nat): (r: seq<Desc>)
    ensures |r| == 3
    ensures forall i :: 0 <= i < 3 ==> r[i] == Stream(id, i)
  {
    [Stream(id, 0), Stream(id, 1), Stream(id, 2)]
  }

  /** Concatenation is associative. */
  lemma AppendAssoc<T>(a: seq<T>, b: seq<T>, c: seq<T>)
    ensures a + b + c == a + (b + c)
  {
  }

  function Min(a: nat, b: nat): nat {
    if a <= b then a else b
  }
}

=== FILE: features.dfy ===
/** `loaded_application_features`: the entries of `$LOADED_FEATURES` that lie
    under the application root. The resolved root (`File.realpath(Rails.root)`)
    is a parameter. */
module Features {
  import opened Base

  /** The loaded features that start with `root`, in load order. */
  function LoadedApplicationFeatures(loaded: seq<Path>, root: Path): (r: seq<Path>)
    ensures |r| <= |loaded|
    ensures forall i :: 0 <= i < |r| ==> StartsWith(r[i], root)
  {
    if |loaded| == 0 then []
    else if StartsWith(loaded[0], root) then [loaded[0]] + LoadedApplicationFeatures(loaded[1..], root)
    else LoadedApplicationFeatures(loaded[1..], root)
  }

  /** `idx` is a strictly increasing list of positions of `s`. */
  ghost predicate Ascending(idx: seq<nat>, n: nat) {
    && (forall k :: 0 <= k < |idx| ==> idx[k] < n)
    && (forall k, l :: 0 <= k < l < |idx| ==> idx[k] < idx[l])
  }

  /** Every position of `idx` moved one place to the right. */
  function ShiftRight(idx: seq<nat>): (r: seq<nat>)
    ensures |r| == |idx|
    ensures forall k :: 0 <= k < |r| ==> r[k] == idx[k] + 1
  {
    seq(|idx|, k requires 0 <= k < |idx| => idx[k] + 1)
  }

  lemma ShiftRightMembers(idx: seq<nat>, i: nat)
    requires i >= 1
    ensures i in ShiftRight(idx) <==> i - 1 in idx
  {
    var r := ShiftRight(idx);
    if i in r {
      var k :| 0 <= k < |r| && r[k] == i;
      assert idx[k] == i - 1;
    }
    if i - 1 in idx {
      var k :| 0 <= k < |idx| && idx[k] == i - 1;
      assert r[k] == i;
    }
  }

  lemma ShiftRightAscending(idx: seq<nat>, n: nat)
    requires Ascending(idx, n)
    ensures Ascending(ShiftRight(idx), n + 1)
    ensures Ascending([0] + ShiftRight(idx), n + 1)
  {
    var r := ShiftRight(idx);
    var z := [0] + r;
    forall k, l | 0 <= k < l < |z|
      ensures z[k] < z[l]
    {
      if k > 0 {
        assert z[k] == r[k - 1] && z[l] == r[l - 1];
      }
    }
  }

  /** `idx` selects from `loaded` exactly the entries that start with `root`,
      in order, and they make up `out`. */
  ghost predicate Selects(idx: seq<nat>, loaded: seq<Path>, root: Path, out: seq<Path>) {
    && Ascending(idx, |loaded|)
    && |idx| == |out|
    && (forall k :: 0 <= k < |idx| ==> loaded[idx[k]] == out[k])
    && (forall i :: 0 <= i < |loaded| ==> (i in idx <==> StartsWith(loaded[i], root)))
  }

  /** Shifting the positions selected from `rest` by one gives the selected
      positions of `[head] + rest` after the first. */
  lemma ShiftMembers(head: Path, rest: seq<Path>, root: Path, tail: seq<nat>)
    requires forall i :: 0 <= i < |rest| ==> (i in tail <==> StartsWith(rest[i], root))
    ensures forall i :: 1 <= i < |rest| + 1 ==> (i in ShiftRight(tail) <==> StartsWith(([head] + rest)[i], root))
    ensures 0 !in ShiftRight(tail)
  {
    var loaded := [head] + rest;
    forall i | 1 <= i < |loaded|
      ensures i in ShiftRight(tail) <==> StartsWith(loaded[i], root)
    {
      assert loaded[i] == rest[i - 1];
      ShiftRightMembers(tail, i);
    }
  }

  /** Shifted positions pick the same entries out of `[head] + rest`. */
  lemma ShiftPicks(head: Path, rest: seq<Path>, tail: seq<nat>, outTail: seq<Path>)
    requires |tail| == |outTail|
    requires forall k :: 0 <= k < |tail| ==> tail[k] < |rest| && rest[tail[k]] == outTail[k]
    ensures forall k :: 0 <= k < |tail| ==> ([head] + rest)[ShiftRight(tail)[k]] == outTail[k]
  {
  }

  /** Shifting a selection for `rest` by one accounts for every position of
      `[head] + rest` after the first. */
  lemma SelectsShift(head: Path, rest: seq<Path>, root: Path, tail: seq<nat>, outTail: seq<Path>)
    requires Selects(tail, rest, root, outTail)
    ensures Ascending(ShiftRight(tail), |rest| + 1)
    ensures Ascending([0] + ShiftRight(tail), |rest| + 1)
    ensures forall i :: 1 <= i < |rest| + 1 ==> (i in ShiftRight(tail) <==> StartsWith(([head] + rest)[i], root))
    ensures forall k :: 0 <= k < |tail| ==> ([head] + rest)[ShiftRight(tail)[k]] == outTail[k]
    ensures 0 !in ShiftRight(tail)
  {
    ShiftRightAscending(tail, |rest|);
    ShiftMembers(head, rest, root, tail);
    ShiftPicks(head, rest, tail, outTail);
  }

  lemma ConsMembers(shifted: seq<nat>, matches: nat -> bool, n: nat)
    requires forall i :: 1 <= i < n ==> (i in shifted <==> matches(i))
    requires matches(0)
    ensures forall i :: 0 <= i < n ==> (i in [0] + shifted <==> matches(i))
  {
    forall i | 0 <= i < n
      ensures i in [0] + shifted <==> matches(i)
    {
      if i > 0 {
        assert i in [0] + shifted <==> i in shifted;
      }
    }
  }

  lemma ConsPicks(loaded: seq<Path>, shifted: seq<nat>, outTail: seq<Path>)
    requires |loaded| > 0 && |shifted| == |outTail|
    requires forall k :: 0 <= k < |shifted| ==> shifted[k] < |loaded| && loaded[shifted[k]] == outTail[k]
    ensures forall k :: 0 <= k < |shifted| + 1 ==> loaded[([0] + shifted)[k]] == ([loaded[0]] + outTail)[k]
  {
    forall k | 0 <= k < |shifted| + 1
      ensures loaded[([0] + shifted)[k]] == ([loaded[0]] + outTail)[k]
    {
      if k > 0 {
        assert ([0] + shifted)[k] == shifted[k - 1];
      }
    }
  }

  /** A selection step when the head entry starts with the root. */
  lemma SelectsKeep(head: Path, rest: seq<Path>, root: Path, tail: seq<nat>, outTail: seq<Path>)
    requires Selects(tail, rest, root, outTail)
    requires StartsWith(head, root)
    ensures Selects([0] + ShiftRight(tail), [head] + rest, root, [head] + outTail)
  {
    SelectsShift(head, rest, root, tail, outTail);
    var loaded := [head] + rest;
    ConsMembers(ShiftRight(tail), i => 0 <= i < |loaded| && StartsWith(loaded[i], root), |loaded|);
    ConsPicks(loaded, ShiftRight(tail), outTail);
  }

  /** A selection step when the head entry lies outside the root. */
  lemma SelectsDrop(head: Path, rest: seq<Path>, root: Path, tail: seq<nat>, outTail: seq<Path>)
    requires Selects(tail, rest, root, outTail)
    requires !StartsWith(head, root)
    ensures Selects(ShiftRight(tail), [head] + rest, root, outTail)
  {
    SelectsShift(head, rest, root, tail, outTail);
  }

  /** The filter is exactly the order-preserving selection of the matching
      entries: some ascending list of positions picks out the result, and a
      position is picked if and only if its entry starts with the root. */
  lemma {:induction false} FeaturesSelection(loaded: seq<Path>, root: Path) returns (idx: seq<nat>)
    ensures Selects(idx, loaded, root, LoadedApplicationFeatures(loaded, root))
  {
    if |loaded| == 0 {
      idx := [];
    } else {
      var rest := loaded[1..];
      assert loaded == [loaded[0]] + rest;
      var tail := FeaturesSelection(rest, root);
      if StartsWith(loaded[0], root) {
        SelectsKeep(loaded[0], rest, root, tail, LoadedApplicationFeatures(rest, root));
        idx := [0] + ShiftRight(tail);
      } else {
        SelectsDrop(loaded[0], rest, root, tail, LoadedApplicationFeatures(rest, root));
        idx := ShiftRight(tail);
      }
    }
  }

  /** Consequences for membership: every returned feature was loaded, and every
      loaded feature under the root is returned. */
  lemma FeaturesMembers(loaded: seq<Path>, root: Path)
    ensures forall f :: f in LoadedApplicationFeatures(loaded, root) ==> f in loaded && StartsWith(f, root)
    ensures forall f :: f in loaded && StartsWith(f, root) ==> f in LoadedApplicationFeatures(loaded, root)
  {
    var out := LoadedApplicationFeatures(loaded, root);
    var idx := FeaturesSelection(loaded, root);
    forall f | f in out
      ensures f in loaded
    {
      var k :| 0 <= k < |out| && out[k] == f;
      assert loaded[idx[k]] == f;
    }
    forall f | f in loaded && StartsWith(f, root)
      ensures f in out
    {
      var i :| 0 <= i < |loaded| && loaded[i] == f;
      assert i in idx;
      var k :| 0 <= k < |idx| && idx[k] == i;
      assert out[k] == f;
    }
  }

  /** Filtering an already filtered list changes nothing. */
  lemma {:induction false} FeaturesIdempotent(loaded: seq<Path>, root: Path)
    ensures LoadedApplicationFeatures(LoadedApplicationFeatures(loaded, root), root)
         == LoadedApplicationFeatures(loaded, root)
  {
    if |loaded| > 0 {
      FeaturesIdempotent(loaded[1..], root);
      var rest := LoadedApplicationFeatures(loaded[1..], root);
      if StartsWith(loaded[0], root) {
        assert ([loaded[0]] + rest)[1..] == rest;
      }
    }
  }

  /** Filtering distributes over a list that was extended by later loads. */
  lemma {:induction false} FeaturesAppend(a: seq<Path>, b: seq<Path>, root: Path)
    ensures LoadedApplicationFeatures(a + b, root)
         == LoadedApplicationFeatures(a, root) + LoadedApplicationFeatures(b, root)
  {
    if |a| == 0 {
      assert a + b == b;
    } else {
      assert (a + b)[0] == a[0];
      assert (a + b)[1..] == a[1..] + b;
      FeaturesAppend(a[1..], b, root);
    }
  }
}

=== FILE: framing.dfy ===
/** The argument framing on the client connection: a line holding the decimal
    byte count N, then exactly N bytes of serialized arguments. */
module Framing {
  import opened Base

  const LF: Byte := 10
  const Zero: Byte := 48

  predicate IsDigit(b: Byte) {
    Zero <= b < Zero + 10
  }

  /** The decimal digits of `n`, most significant first, without leading zeros. */
  function Decimal(n: nat): (r: seq<Byte>)
    ensures |r| > 0
    ensures forall i :: 0 <= i < |r| ==> IsDigit(r[i])
  {
    if n < 10 then [Zero + n] else Decimal(n / 10) + [Zero + n % 10]
  }

  /** The value of a string of decimal digits (what `to_i` reads from it). */
  function DigitsValue(s: seq<Byte>): nat
    requires forall i :: 0 <= i < |s| ==> IsDigit(s[i])
  {
    if |s| == 0 then 0
    else
      var last := s[|s| - 1];
      assert IsDigit(last);
      DigitsValue(s[..|s| - 1]) * 10 + (last - Zero)
  }

  /** Reading back the digits of `n` gives `n`. */
  lemma {:induction false} DecimalRoundTrip(n: nat)
    ensures DigitsValue(Decimal(n)) == n
  {
    if n >= 10 {
      var s := Decimal(n);
      assert s[..|s| - 1] == Decimal(n / 10);
      DecimalRoundTrip(n / 10);
    }
  }

  /** `gets`: the line up to its first line feed, split into the bytes
      before the feed and what follows it. At the end of the stream without
      a line feed it returns the remaining bytes as the last line, and
      `None` (Ruby's `nil`) only when nothing is left. */
  function SplitLine(s: seq<Byte>): (r: Option<(seq<Byte>, seq<Byte>)>)
    ensures r.None? <==> |s| == 0
    ensures r.Some? && LF in s ==> r.value.0 + [LF] + r.value.1 == s && LF !in r.value.0
    ensures r.Some? && LF !in s ==> r.value == (s, [])
  {
    if |s| == 0 then None
    else if s[0] == LF then Some(([], s[1..]))
    else match SplitLine(s[1..])
      case None => Some((s, []))
      case Some(split) =>
        assert s == [s[0]] + s[1..];
        Some(([s[0]] + split.0, split.1))
  }

  /** `read(n)`: the next `n` bytes, or `None` when the stream ends first. */
  function ReadExactly(n: nat, avail: seq<Byte>): (r: Option<seq<Byte>>)
    ensures r.Some? <==> n <= |avail|
    ensures r.Some? ==> |r.value| == n && r.value <= avail
  {
    if n <= |avail| then Some(avail[..n]) else None
  }

  /** What a client sends after its three descriptors. */
  function Frame(payload: seq<Byte>): seq<Byte> {
    Decimal(|payload|) + [LF] + payload
  }

  /** The length line of a well-formed frame, parsed as digits. */
  function ParseLength(line: seq<Byte>): Option<nat> {
    if |line| > 0 && forall i :: 0 <= i < |line| ==> IsDigit(line[i]) then Some(DigitsValue(line)) else None
  }

  /** The receiving side: read a length line, then that many bytes. Returns
      the payload and the bytes left on the connection. */
  function Unframe(wire: seq<Byte>): Option<(seq<Byte>, seq<Byte>)> {
    match SplitLine(wire)
    case None => None
    case Some(split) =>
      match ParseLength(split.0)
      case None => None
      case Some(n) =>
        match ReadExactly(n, split.1)
        case None => None
        case Some(payload) => Some((payload, split.1[n..]))
  }

  /** A line with no line feed in it is split off intact. */
  lemma {:induction false} SplitLineAt(line: seq<Byte>, rest: seq<Byte>)
    requires LF !in line
    ensures SplitLine(line + [LF] + rest) == Some((line, rest))
  {
    if |line| > 0 {
      assert (line + [LF] + rest)[1..] == line[1..] + [LF] + rest;
      SplitLineAt(line[1..], rest);
      assert [line[0]] + line[1..] == line;
    } else {
      assert line + [LF] + rest == [LF] + rest;
    }
  }

  /** The length line of a frame is split off and read back as the
      payload's size. */
  lemma FrameSplits(payload: seq<Byte>, rest: seq<Byte>)
    ensures SplitLine(Frame(payload) + rest) == Some((Decimal(|payload|), payload + rest))
    ensures ParseLength(Decimal(|payload|)) == Some(|payload|)
  {
    var digits := Decimal(|payload|);
    assert LF !in digits;
    assert Frame(payload) + rest == digits + [LF] + (payload + rest);
    SplitLineAt(digits, payload + rest);
    DecimalRoundTrip(|payload|);
  }

  /** Round trip: whatever follows a frame on the wire, the receiver reads
      back exactly the framed payload and leaves the rest unread. */
  lemma FrameRoundTrip(payload: seq<Byte>, rest: seq<Byte>)
    ensures Unframe(Frame(payload) + rest) == Some((payload, rest))
  {
    FrameSplits(payload, rest);
    assert (payload + rest)[..|payload|] == payload;
    assert (payload + rest)[|payload|..] == rest;
  }
}

=== FILE: master.dfy ===
/** The master process of one application (`Application#run`): it starts the
    watcher, then, on every wake-up, either exits because the application's
    files changed or serves the next client the manager hands over. Each
    reaper thread, started for a dispatched worker, later waits for it, closes
    its streams and reports its exit status; in this model a reaper finishing
    is an event of the same sequence. */
module Master {
  import opened Base
  import opened SetupCache
  import opened Trace
  import opened Serve
  import opened ServeProps

  /** The master's state: the setup cache, everything it has done so far,
      how many clients it has accepted (the next request's number), and the
      reapers still waiting, by request number, with their worker's pid, and
      the requests whose `serve` raised an exception outside `StandardError`,
      which the rescue clause does not catch. */
  datatype App = App(cache: Cache, trace: seq<Effect>, served: nat, pending: map<nat, nat>, escaped: set<nat>)

  /** Why the loop woke up.
      - Stale: the watcher reports a change (`watcher.stale?`);
      - Accept: the manager hands over a client; `None` when `recv_io` raises;
      - ReaperDone: the reaper of request `req` saw its worker end with
        `status` (`None` when it was killed by a signal) and `writeOk` says
        whether writing that status to the client succeeded. */
  datatype Event =
    | Stale
    | Accept(conn: Option<Request>)
    | ReaperDone(req: nat, status: Option<ExitCode>, writeOk: bool)

  /** `Exited`: `exit` after a change; `Crashed`: an exception escaped `run`. */
  datatype Status = Running | Exited | Crashed(cause: Failure)

  datatype Master = Master(app: App, status: Status)

  /** One accepted client: the state after `serve` and how `serve` ended. */
  datatype Turn = Turn(app: App, outcome: Outcome)

  /** `serve manager.recv_io(UNIXSocket)`: the client connection arrives as
      request number `served`, `serve` runs, and a dispatched worker gets a
      reaper. */
  function ServeNext(cfg: Config, a: App, r: Request): (t: Turn)
    ensures t.app.served == a.served + 1
    ensures a.trace < t.app.trace && t.app.trace[|a.trace|] == Received(ClientConn(a.served))
    ensures a.cache.done <= t.app.cache.done && a.cache.watched <= t.app.cache.watched
    ensures t.outcome.Dispatched? ==> t.app.pending == a.pending[a.served := t.outcome.pid]
    ensures t.outcome.Raised? ==> t.app.pending == a.pending
    ensures t.app.escaped == if t.outcome.Raised? && !t.outcome.rescued then a.escaped + {a.served} else a.escaped
  {
    var id := a.served;
    var h := Handle(cfg, a.cache, id, r);
    ServeWrites(cfg, a.cache, id, r);
    var pending := match h.outcome
      case Dispatched(pid) => a.pending[id := pid]
      case Raised(_, _, _) => a.pending;
    var escaped := if h.outcome.Raised? && !h.outcome.rescued then a.escaped + {id} else a.escaped;
    Turn(App(h.cache, a.trace + [Received(ClientConn(id))] + h.effects, id + 1, pending, escaped), h.outcome)
  }

  /** What a reaper does once `Process.wait2` returns: close the three
      streams, write the exit status to the client and close it. A failing
      write ends the thread before the client is closed. */
  function ReapEffects(id: nat, pid: nat, status: Option<ExitCode>, writeOk: bool): (r: seq<Effect>)
    ensures |r| == if writeOk then 6 else 4
    ensures r[0] == Waited(id, pid)
    ensures forall slot :: 0 <= slot < 3 ==> r[1 + slot] == Close(Stream(id, slot))
    ensures writeOk ==> r[4] == ToClient(id, status) && r[5] == Close(ClientConn(id))
  {
    [Waited(id, pid)] + StreamCloses(id) + (if writeOk then Notify(id, status) else [])
  }

  /** The reaper of request `id` finishing; nothing happens for a request
      that has no reaper waiting. */
  function Reap(a: App, id: nat, status: Option<ExitCode>, writeOk: bool): (b: App)
    ensures id !in a.pending ==> b == a
    ensures id in a.pending ==> b.pending == a.pending - {id} && a.trace < b.trace
    ensures b.cache == a.cache && b.served == a.served && b.escaped == a.escaped
  {
    if id !in a.pending then a
    else App(a.cache, a.trace + ReapEffects(id, a.pending[id], status, writeOk), a.served, a.pending - {id}, a.escaped)
  }

  /** One turn of the loop in `run`. Once the master has exited or crashed
      nothing more happens. */
  function Step(cfg: Config, m: Master, ev: Event): (n: Master)
    ensures m.status != Running ==> n == m
    ensures m.status == Running && ev.Stale? ==> n == Master(m.app, Exited)
    ensures m.status == Running && ev == Accept(None) ==> n == Master(m.app, Crashed(AcceptFailed))
    ensures m.status == Running && ev.ReaperDone? ==> n.status == Running
    ensures m.status == Running && ev.Accept? && ev.conn.Some? ==>
      var t := ServeNext(cfg, m.app, ev.conn.value);
      && n.app == t.app
      && (t.outcome.Dispatched? ==> n.status == Running)
      && (t.outcome.Raised? ==> n.status == Crashed(t.outcome.cause))
  {
    if m.status != Running then m
    else match ev
      case Stale => Master(m.app, Exited)
      case Accept(None) => Master(m.app, Crashed(AcceptFailed))
      case Accept(Some(r)) =>
        var t := ServeNext(cfg, m.app, r);
        Master(t.app, match t.outcome case Dispatched(_) => Running case Raised(cause, _, _) => Crashed(cause))
      case ReaperDone(id, status, writeOk) => Master(Reap(m.app, id, status, writeOk), Running)
  }

  /** The loop of `run` over a sequence of events. */
  function Loop(cfg: Config, m: Master, evs: seq<Event>): (n: Master)
    ensures m.app.trace <= n.app.trace
    ensures m.app.served <= n.app.served
    ensures m.app.cache.done <= n.app.cache.done && m.app.cache.watched <= n.app.cache.watched
    decreases |evs|
  {
    if |evs| == 0 then m else Loop(cfg, Step(cfg, m, evs[0]), evs[1..])
  }

  /** `run`: start the watcher, then loop. `watched` is what `start` handed
      to the watcher; no command has been set up yet. */
  function Run(cfg: Config, watched: set<Path>, evs: seq<Event>): (n: Master)
    ensures |n.app.trace| > 0 && n.app.trace[0] == WatcherStarted
    ensures watched <= n.app.cache.watched
  {
    Loop(cfg, Master(App(Cache({}, watched), [WatcherStarted], 0, map[], {}), Running), evs)
  }
}

=== FILE: master_props.dfy ===
/** The invariant the master keeps across requests and reapers: descriptors
    are received once and closed at most once, and every closed descriptor
    is among those received; a request whose three streams all arrived has
    them closed as soon as it is no longer waiting on a worker, unless its
    exception escaped the rescue clause; every client is written at
    most one status line, and exactly one if it was closed; a waiting reaper's
    descriptors are still open and its pid was reported; each kind's setup
    hook ran at most once. */
module MasterProps {
  import opened Base
  import opened SetupCache
  import opened Trace
  import opened Serve
  import opened ServeProps
  import opened Master

  /** All three streams of request `id` occur in `s`. */
  predicate AllStreams(s: seq<Desc>, id: nat) {
    Stream(id, 0) in s && Stream(id, 1) in s && Stream(id, 2) in s
  }

  /** No descriptor of request `id` occurs in `s`. */
  predicate Untouched(s: seq<Desc>, id: nat) {
    forall d :: d in s ==> d.req != id
  }

  ghost predicate ReceiptsGood(a: App) {
    && NoDup(Receipts(a.trace))
    && (forall d :: d in Receipts(a.trace) ==> d.req < a.served)
    && (forall id: nat :: id < a.served ==> ClientConn(id) in Receipts(a.trace))
  }

  ghost predicate ClosesGood(a: App) {
    && NoDup(Closes(a.trace))
    && (forall d :: d in Closes(a.trace) ==> d in Receipts(a.trace))
    && (forall d :: d in Closes(a.trace) && d.Stream? ==> AllStreams(Receipts(a.trace), d.req))
    && (forall id: nat :: id < a.served && id !in a.pending && id !in a.escaped && AllStreams(Receipts(a.trace), id) ==> AllStreams(Closes(a.trace), id))
  }

  ghost predicate PendingGood(a: App) {
    forall id :: id in a.pending ==>
      && id < a.served
      && AllStreams(Receipts(a.trace), id)
      && Untouched(Closes(a.trace), id)
      && ClientLines(a.trace, id) == []
      && PidLine(a.pending[id]) in ManagerLines(a.trace)
  }

  ghost predicate ClientsGood(a: App) {
    && (forall id: nat :: |ClientLines(a.trace, id)| <= 1)
    && (forall id: nat :: id >= a.served ==> ClientLines(a.trace, id) == [])
    && (forall id: nat :: ClientConn(id) in Closes(a.trace) ==> |ClientLines(a.trace, id)| == 1)
  }

  ghost predicate HooksGood(a: App) {
    && NoDup(Hooks(a.trace))
    && (forall k :: k in Hooks(a.trace) ==> k in a.cache.done)
  }

  ghost predicate Good(a: App) {
    ReceiptsGood(a) && ClosesGood(a) && PendingGood(a) && ClientsGood(a) && HooksGood(a)
  }

  /** The descriptors a request receives: its connection, then the streams
      that arrived; no two alike, all belonging to the request. */
  lemma ArrivalsDistinct(id: nat, k: nat)
    requires k <= 3
    ensures NoDup([ClientConn(id)] + Streams(id)[..k])
    ensures forall d :: d in [ClientConn(id)] + Streams(id)[..k] ==> d.req == id
  {
  }

  /** What `serve` may close: all of it belongs to the request, no two alike. */
  lemma ServeClosesDistinct(id: nat, streams: bool, client: bool)
    ensures NoDup((if streams then Streams(id) else []) + (if client then [ClientConn(id)] else []))
    ensures forall d :: d in (if streams then Streams(id) else []) + (if client then [ClientConn(id)] else []) ==> d.req == id
  {
  }

  /** How serving request `a.served` changes the master's state, as far as
      the invariant is concerned, in four parts: `k` streams arrived, `out`
      is how `serve` ended, `writeOk` whether the rescue clause could write
      to the client, and `hooks` the setup hooks it ran. */
  ghost predicate PendingDelta(a: App, b: App, k: nat, out: Outcome) {
    && k <= 3
    && b.served == a.served + 1
    && (out.Dispatched? ==> k == 3 && b.pending == a.pending[a.served := out.pid])
    && (out.Raised? ==> b.pending == a.pending)
    && b.escaped == if out.Raised? && !out.rescued then a.escaped + {a.served} else a.escaped
  }

  /** The descriptors `serve` closes for request `id`. */
  function Disposed(id: nat, k: nat, out: Outcome, writeOk: bool): seq<Desc> {
    if out.Dispatched? || !out.rescued then [] else (if k == 3 then Streams(id) else []) + (if writeOk then [ClientConn(id)] else [])
  }

  ghost predicate DescDelta(a: App, b: App, k: nat, out: Outcome, writeOk: bool) {
    && k <= 3
    && Receipts(b.trace) == Receipts(a.trace) + ([ClientConn(a.served)] + Streams(a.served)[..k])
    && Closes(b.trace) == Closes(a.trace) + Disposed(a.served, k, out, writeOk)
  }

  ghost predicate LineDelta(a: App, b: App, out: Outcome, writeOk: bool) {
    && (forall l :: l in ManagerLines(a.trace) ==> l in ManagerLines(b.trace))
    && (out.Dispatched? ==> PidLine(out.pid) in ManagerLines(b.trace))
    && (forall q: nat :: ClientLines(b.trace, q) == ClientLines(a.trace, q) + (if out.Raised? && out.rescued && q == a.served && writeOk then [Some(1)] else []))
  }

  ghost predicate HookDelta(a: App, b: App, hooks: seq<Kind>) {
    && Hooks(b.trace) == Hooks(a.trace) + hooks
    && |hooks| <= 1
    && (forall x :: x in hooks ==> x !in a.cache.done && x in b.cache.done)
    && a.cache.done <= b.cache.done
  }

  /** A view that ignores the accepted connection sees only what came
      before it and what `serve` did. */
  lemma AcceptView<T>(prev: seq<Effect>, acc: Effect, e: seq<Effect>, view: Effect -> Option<T>)
    requires view(acc).None?
    ensures Project(prev + [acc] + e, view) == Project(prev, view) + Project(e, view)
  {
    ProjectOne(acc, view);
    ProjectAppend(prev, [acc], view);
    ProjectAppend(prev + [acc], e, view);
  }

  /** The descriptors received and closed when a client is accepted and served. */
  lemma AcceptDescriptors(prev: seq<Effect>, id: nat, e: seq<Effect>)
    ensures Receipts(prev + [Received(ClientConn(id))] + e) == Receipts(prev) + ([ClientConn(id)] + Receipts(e))
    ensures Closes(prev + [Received(ClientConn(id))] + e) == Closes(prev) + Closes(e)
  {
    var acc := [Received(ClientConn(id))];
    ProjectOne(Received(ClientConn(id)), ReceivedBy);
    ProjectAppend(prev, acc, ReceivedBy);
    ProjectAppend(prev + acc, e, ReceivedBy);
    AppendAssoc(Receipts(prev), [ClientConn(id)], Receipts(e));
    AcceptView(prev, Received(ClientConn(id)), e, ClosedBy);
  }

  /** The hooks run and lines written when a client is accepted and served. */
  lemma AcceptLines(prev: seq<Effect>, id: nat, e: seq<Effect>)
    ensures Hooks(prev + [Received(ClientConn(id))] + e) == Hooks(prev) + Hooks(e)
    ensures ManagerLines(prev + [Received(ClientConn(id))] + e) == ManagerLines(prev) + ManagerLines(e)
  {
    AcceptView(prev, Received(ClientConn(id)), e, HookOf);
    AcceptView(prev, Received(ClientConn(id)), e, ManagerLineOf);
  }

  /** The status lines written to client `q` when a client is accepted and served. */
  lemma AcceptClientLinesAll(prev: seq<Effect>, id: nat, e: seq<Effect>)
    ensures forall q: nat :: ClientLines(prev + [Received(ClientConn(id))] + e, q) == ClientLines(prev, q) + ClientLines(e, q)
  {
    forall q: nat
      ensures ClientLines(prev + [Received(ClientConn(id))] + e, q) == ClientLines(prev, q) + ClientLines(e, q)
    {
      AcceptClientLines(prev, id, e, q);
    }
  }

  lemma AcceptClientLines(prev: seq<Effect>, id: nat, e: seq<Effect>, q: nat)
    ensures ClientLines(prev + [Received(ClientConn(id))] + e, q) == ClientLines(prev, q) + ClientLines(e, q)
  {
    var acc := [Received(ClientConn(id))];
    ClientLinesNone(acc, q);
    ClientLinesAppend(prev, acc, q);
    ClientLinesAppend(prev + acc, e, q);
  }

  /** Serving a client changes the state as the four deltas describe. */
  lemma ServeNextDelta(cfg: Config, a: App, r: Request)
    ensures var t := ServeNext(cfg, a, r);
      && PendingDelta(a, t.app, Got(r), t.outcome)
      && DescDelta(a, t.app, Got(r), t.outcome, r.rescueWriteOk)
      && LineDelta(a, t.app, t.outcome, r.rescueWriteOk)
      && HookDelta(a, t.app, Hooks(Handle(cfg, a.cache, a.served, r).effects))
  {
    ServeNextDescs(cfg, a, r);
    ServeNextLines(cfg, a, r);
  }

  lemma ServeNextDescs(cfg: Config, a: App, r: Request)
    ensures var t := ServeNext(cfg, a, r);
      && PendingDelta(a, t.app, Got(r), t.outcome)
      && DescDelta(a, t.app, Got(r), t.outcome, r.rescueWriteOk)
  {
    var t := Handle(cfg, a.cache, a.served, r);
    ServeDescriptors(cfg, a.cache, a.served, r);
    AcceptDescriptors(a.trace, a.served, t.effects);
  }

  lemma ServeNextLines(cfg: Config, a: App, r: Request)
    ensures var t := ServeNext(cfg, a, r);
      && LineDelta(a, t.app, t.outcome, r.rescueWriteOk)
      && HookDelta(a, t.app, Hooks(Handle(cfg, a.cache, a.served, r).effects))
  {
    var t := Handle(cfg, a.cache, a.served, r);
    ServeWrites(cfg, a.cache, a.served, r);
    AcceptLines(a.trace, a.served, t.effects);
    AcceptClientLinesAll(a.trace, a.served, t.effects);
    if t.outcome.Dispatched? {
      assert ManagerLines(t.effects)[1] == PidLine(t.outcome.pid);
    }
  }

  lemma DeltaKeepsReceipts(a: App, b: App, k: nat, out: Outcome, writeOk: bool)
    requires PendingDelta(a, b, k, out) && DescDelta(a, b, k, out, writeOk)
    requires ReceiptsGood(a)
    ensures ReceiptsGood(b)
  {
    ArrivalsDistinct(a.served, k);
    NoDupAppend(Receipts(a.trace), [ClientConn(a.served)] + Streams(a.served)[..k]);
  }

  /** What `serve` closes arrived in the same request: the client always,
      the streams only when all three did. */
  lemma DisposedArrived(id: nat, k: nat, out: Outcome, writeOk: bool)
    requires k <= 3
    ensures forall d :: d in Disposed(id, k, out, writeOk) ==>
      d.req == id && d in [ClientConn(id)] + Streams(id)[..k] && (d.Stream? ==> k == 3)
  {
    assert k == 3 ==> Streams(id)[..k] == Streams(id);
  }

  lemma DeltaClosesDistinct(a: App, b: App, k: nat, out: Outcome, writeOk: bool)
    requires DescDelta(a, b, k, out, writeOk)
    requires ReceiptsGood(a) && ClosesGood(a)
    ensures NoDup(Closes(b.trace))
  {
    ServeClosesDistinct(a.served, k == 3, writeOk);
    DisposedArrived(a.served, k, out, writeOk);
    NoDupAppend(Closes(a.trace), Disposed(a.served, k, out, writeOk));
  }

  lemma DeltaClosesReceived(a: App, b: App, k: nat, out: Outcome, writeOk: bool)
    requires DescDelta(a, b, k, out, writeOk)
    requires ClosesGood(a)
    ensures forall d :: d in Closes(b.trace) ==> d in Receipts(b.trace)
    ensures forall d :: d in Closes(b.trace) && d.Stream? ==> AllStreams(Receipts(b.trace), d.req)
  {
    var id := a.served;
    DisposedArrived(id, k, out, writeOk);
    assert k == 3 ==> Streams(id)[..k] == Streams(id);
  }

  /** The request just served has its streams closed unless a reaper now
      waits on it, whenever all three arrived. */
  lemma NewClosesComplete(a: App, b: App, k: nat, out: Outcome, writeOk: bool)
    requires PendingDelta(a, b, k, out) && DescDelta(a, b, k, out, writeOk)
    requires forall d :: d in Receipts(a.trace) ==> d.req < a.served
    requires a.served !in b.pending && a.served !in b.escaped && AllStreams(Receipts(b.trace), a.served)
    ensures AllStreams(Closes(b.trace), a.served)
  {
    var id := a.served;
    assert Stream(id, 2) !in Receipts(a.trace);
    assert Stream(id, 2) in [ClientConn(id)] + Streams(id)[..k];
    assert Streams(id)[..k] == Streams(id);
  }

  /** An earlier request keeps its streams closed. */
  lemma OldClosesComplete(a: App, b: App, k: nat, out: Outcome, writeOk: bool, j: nat)
    requires PendingDelta(a, b, k, out) && DescDelta(a, b, k, out, writeOk)
    requires ClosesGood(a)
    requires j < b.served && j != a.served && j !in b.pending && j !in b.escaped && AllStreams(Receipts(b.trace), j)
    ensures AllStreams(Closes(b.trace), j)
  {
    var arrivals := [ClientConn(a.served)] + Streams(a.served)[..k];
    ArrivalsDistinct(a.served, k);
    forall x | 0 <= x < 3
      ensures Stream(j, x) in Receipts(a.trace)
    {
      assert Stream(j, x) !in arrivals;
      assert Stream(j, x) in Receipts(a.trace) + arrivals;
    }
    assert j < a.served && j !in a.pending && j !in a.escaped;
  }

  lemma DeltaClosesComplete(a: App, b: App, k: nat, out: Outcome, writeOk: bool)
    requires PendingDelta(a, b, k, out) && DescDelta(a, b, k, out, writeOk)
    requires ReceiptsGood(a) && ClosesGood(a)
    ensures forall j: nat :: j < b.served && j !in b.pending && j !in b.escaped && AllStreams(Receipts(b.trace), j) ==> AllStreams(Closes(b.trace), j)
  {
    forall j: nat | j < b.served && j !in b.pending && j !in b.escaped && AllStreams(Receipts(b.trace), j)
      ensures AllStreams(Closes(b.trace), j)
    {
      if j == a.served {
        NewClosesComplete(a, b, k, out, writeOk);
      } else {
        OldClosesComplete(a, b, k, out, writeOk, j);
      }
    }
  }

  lemma DeltaKeepsCloses(a: App, b: App, k: nat, out: Outcome, writeOk: bool)
    requires PendingDelta(a, b, k, out) && DescDelta(a, b, k, out, writeOk)
    requires ReceiptsGood(a) && ClosesGood(a)
    ensures ClosesGood(b)
  {
    DeltaClosesDistinct(a, b, k, out, writeOk);
    DeltaClosesReceived(a, b, k, out, writeOk);
    DeltaClosesComplete(a, b, k, out, writeOk);
  }

  /** The descriptors of a waiting reaper stay open while `serve` runs. */
  lemma OldEntryDescs(a: App, b: App, k: nat, out: Outcome, writeOk: bool, j: nat)
    requires DescDelta(a, b, k, out, writeOk)
    requires j != a.served && AllStreams(Receipts(a.trace), j) && Untouched(Closes(a.trace), j)
    ensures AllStreams(Receipts(b.trace), j) && Untouched(Closes(b.trace), j)
  {
    ServeClosesDistinct(a.served, k == 3, writeOk);
  }

  /** The client of a waiting reaper is not written to while `serve` runs. */
  lemma OldEntryLines(a: App, b: App, out: Outcome, writeOk: bool, j: nat, pid: nat)
    requires LineDelta(a, b, out, writeOk)
    requires j != a.served && ClientLines(a.trace, j) == [] && PidLine(pid) in ManagerLines(a.trace)
    ensures ClientLines(b.trace, j) == [] && PidLine(pid) in ManagerLines(b.trace)
  {
    assert ClientLines(b.trace, j) == ClientLines(a.trace, j) + [];
  }

  /** The reaper `serve` starts has its three streams received and none of
      its descriptors closed. */
  lemma NewEntryDescs(a: App, b: App, out: Outcome, writeOk: bool)
    requires DescDelta(a, b, 3, out, writeOk) && out.Dispatched?
    requires forall d :: d in Closes(a.trace) ==> d.req < a.served
    ensures AllStreams(Receipts(b.trace), a.served) && Untouched(Closes(b.trace), a.served)
  {
    var id := a.served;
    assert Streams(id)[..3] == Streams(id);
    assert [ClientConn(id)] + Streams(id) == [ClientConn(id), Stream(id, 0), Stream(id, 1), Stream(id, 2)];
  }

  /** The reaper `serve` starts has its client not yet written to and its
      pid reported. */
  lemma NewEntryLines(a: App, b: App, out: Outcome, writeOk: bool)
    requires LineDelta(a, b, out, writeOk) && out.Dispatched?
    requires ClientLines(a.trace, a.served) == []
    ensures ClientLines(b.trace, a.served) == [] && PidLine(out.pid) in ManagerLines(b.trace)
  {
    assert ClientLines(b.trace, a.served) == ClientLines(a.trace, a.served) + [];
  }

  lemma DeltaKeepsPending(a: App, b: App, k: nat, out: Outcome, writeOk: bool)
    requires PendingDelta(a, b, k, out) && DescDelta(a, b, k, out, writeOk) && LineDelta(a, b, out, writeOk)
    requires ReceiptsGood(a) && ClosesGood(a) && PendingGood(a) && ClientsGood(a)
    ensures PendingGood(b)
  {
    forall j | j in b.pending
      ensures j < b.served && AllStreams(Receipts(b.trace), j) && Untouched(Closes(b.trace), j)
      ensures ClientLines(b.trace, j) == [] && PidLine(b.pending[j]) in ManagerLines(b.trace)
    {
      if j in a.pending {
        assert b.pending[j] == a.pending[j];
        OldEntryDescs(a, b, k, out, writeOk, j);
        OldEntryLines(a, b, out, writeOk, j, a.pending[j]);
      } else {
        assert (forall d :: d in Closes(a.trace) ==> d.req < a.served);
        NewEntryDescs(a, b, out, writeOk);
        NewEntryLines(a, b, out, writeOk);
      }
    }
  }

  lemma DeltaKeepsClients(a: App, b: App, k: nat, out: Outcome, writeOk: bool)
    requires PendingDelta(a, b, k, out) && DescDelta(a, b, k, out, writeOk) && LineDelta(a, b, out, writeOk)
    requires ReceiptsGood(a) && ClosesGood(a) && ClientsGood(a)
    ensures ClientsGood(b)
  {
    var id := a.served;
    assert ClientLines(a.trace, id) == [];
    assert ClientConn(id) !in Receipts(a.trace);
    assert ClientConn(id) !in Closes(a.trace);
    forall q: nat
      ensures |ClientLines(b.trace, q)| <= 1
      ensures q >= b.served ==> ClientLines(b.trace, q) == []
      ensures ClientConn(q) in Closes(b.trace) ==> |ClientLines(b.trace, q)| == 1
    {
      if q != id {
        assert ClientLines(b.trace, q) == ClientLines(a.trace, q) + [];
        if ClientConn(q) in Closes(b.trace) {
          assert ClientConn(q) in Closes(a.trace);
        }
      }
    }
  }

  lemma DeltaKeepsHooks(a: App, b: App, hooks: seq<Kind>)
    requires HookDelta(a, b, hooks)
    requires HooksGood(a)
    ensures HooksGood(b)
  {
    assert NoDup(hooks);
    NoDupAppend(Hooks(a.trace), hooks);
  }

  /** Serving a client keeps the invariant. */
  lemma ServeKeepsGood(cfg: Config, a: App, r: Request)
    requires Good(a)
    ensures Good(ServeNext(cfg, a, r).app)
  {
    var t := ServeNext(cfg, a, r);
    ServeNextDelta(cfg, a, r);
    DeltaKeepsReceipts(a, t.app, Got(r), t.outcome, r.rescueWriteOk);
    DeltaKeepsCloses(a, t.app, Got(r), t.outcome, r.rescueWriteOk);
    DeltaKeepsPending(a, t.app, Got(r), t.outcome, r.rescueWriteOk);
    DeltaKeepsClients(a, t.app, Got(r), t.outcome, r.rescueWriteOk);
    DeltaKeepsHooks(a, t.app, Hooks(Handle(cfg, a.cache, a.served, r).effects));
  }

  /** The reaper's order: wait for the worker, close the three streams,
      then write the status, then close the client. */
  lemma ReaperOrder(id: nat, pid: nat, status: Option<ExitCode>, writeOk: bool)
    ensures var e := ReapEffects(id, pid, status, writeOk);
      && e[0] == Waited(id, pid)
      && (forall i, j :: 0 <= i < |e| && 0 <= j < |e| && e[i].Close? && e[i].d.Stream? && e[j].ToClient? ==> i < j)
      && (forall i, j :: 0 <= i < |e| && 0 <= j < |e| && e[i].ToClient? && e[j] == Close(ClientConn(id)) ==> i < j)
      && (ToClient(id, status) in e <==> writeOk)
  {
  }

  /** A reaper closes the three streams, then the client if the status was
      written. */
  lemma ReapClosesView(id: nat, pid: nat, status: Option<ExitCode>, writeOk: bool)
    ensures Closes(ReapEffects(id, pid, status, writeOk)) == Streams(id) + (if writeOk then [ClientConn(id)] else [])
  {
    var notify := if writeOk then Notify(id, status) else [];
    Project3([Waited(id, pid)], StreamCloses(id), notify, ClosedBy);
    ProjectOne(Waited(id, pid), ClosedBy);
    StreamClosesViews(id);
    NotifyViews(id, status);
  }

  /** A reaper receives nothing, runs no hook, writes nothing to the manager,
      and writes the status to its own client only. */
  lemma ReapLinesView(id: nat, pid: nat, status: Option<ExitCode>, writeOk: bool)
    ensures var e := ReapEffects(id, pid, status, writeOk);
      && Receipts(e) == [] && Hooks(e) == [] && ManagerLines(e) == []
      && (forall q :: ClientLines(e, q) == if writeOk && q == id then [status] else [])
  {
    ReapQuiet(id, pid, status, writeOk);
    ReapClientLines(id, pid, status, writeOk);
  }

  lemma ReapQuiet(id: nat, pid: nat, status: Option<ExitCode>, writeOk: bool)
    ensures var e := ReapEffects(id, pid, status, writeOk);
      Receipts(e) == [] && Hooks(e) == [] && ManagerLines(e) == []
  {
    var e := ReapEffects(id, pid, status, writeOk);
    assert forall i :: 0 <= i < |e| ==> e[i].Waited? || e[i].Close? || e[i].ToClient?;
    ProjectNone(e, ReceivedBy);
    ProjectNone(e, HookOf);
    ProjectNone(e, ManagerLineOf);
  }

  lemma ReapClientLines(id: nat, pid: nat, status: Option<ExitCode>, writeOk: bool)
    ensures forall q :: ClientLines(ReapEffects(id, pid, status, writeOk), q) == if writeOk && q == id then [status] else []
  {
    var w := [Waited(id, pid)];
    var notify := if writeOk then Notify(id, status) else [];
    StreamClosesLines(id);
    NotifyLines(id, status);
    forall q
      ensures ClientLines(w + StreamCloses(id) + notify, q) == if writeOk && q == id then [status] else []
    {
      ClientLinesNone(w, q);
      ClientLines3(w, StreamCloses(id), notify, q);
    }
  }

  lemma ReapEffectsViews(id: nat, pid: nat, status: Option<ExitCode>, writeOk: bool)
    ensures var e := ReapEffects(id, pid, status, writeOk);
      && Receipts(e) == [] && Hooks(e) == [] && ManagerLines(e) == []
      && Closes(e) == Streams(id) + (if writeOk then [ClientConn(id)] else [])
      && (forall q :: ClientLines(e, q) == if writeOk && q == id then [status] else [])
  {
    ReapClosesView(id, pid, status, writeOk);
    ReapLinesView(id, pid, status, writeOk);
  }

  /** How the reaper of request `id` finishing changes the master's state:
      its bookkeeping, its descriptors and its lines. */
  ghost predicate ReapStateDelta(a: App, b: App, id: nat) {
    id in a.pending && b.served == a.served && b.cache == a.cache && b.pending == a.pending - {id} && b.escaped == a.escaped
  }

  ghost predicate ReapDescDelta(a: App, b: App, id: nat, writeOk: bool) {
    && Receipts(b.trace) == Receipts(a.trace)
    && Closes(b.trace) == Closes(a.trace) + (Streams(id) + (if writeOk then [ClientConn(id)] else []))
  }

  ghost predicate ReapLineDelta(a: App, b: App, id: nat, status: Option<ExitCode>, writeOk: bool) {
    && Hooks(b.trace) == Hooks(a.trace)
    && ManagerLines(b.trace) == ManagerLines(a.trace)
    && (forall q: nat :: ClientLines(b.trace, q) == ClientLines(a.trace, q) + if writeOk && q == id then [status] else [])
  }

  /** A waiting reaper finishing changes the state as the deltas describe. */
  lemma ReapNextDelta(a: App, id: nat, status: Option<ExitCode>, writeOk: bool)
    requires id in a.pending
    ensures var b := Reap(a, id, status, writeOk);
      ReapStateDelta(a, b, id) && ReapDescDelta(a, b, id, writeOk) && ReapLineDelta(a, b, id, status, writeOk)
  {
    var e := ReapEffects(id, a.pending[id], status, writeOk);
    ReapEffectsViews(id, a.pending[id], status, writeOk);
    ProjectAppend(a.trace, e, ReceivedBy);
    ProjectAppend(a.trace, e, HookOf);
    ProjectAppend(a.trace, e, ManagerLineOf);
    ProjectAppend(a.trace, e, ClosedBy);
    forall q: nat
      ensures ClientLines(a.trace + e, q) == ClientLines(a.trace, q) + if writeOk && q == id then [status] else []
    {
      ClientLinesAppend(a.trace, e, q);
    }
  }

  lemma ReapClosesDistinct(a: App, b: App, id: nat, writeOk: bool)
    requires ReapDescDelta(a, b, id, writeOk)
    requires NoDup(Closes(a.trace)) && Untouched(Closes(a.trace), id)
    ensures NoDup(Closes(b.trace))
  {
    ServeClosesDistinct(id, true, writeOk);
    NoDupAppend(Closes(a.trace), Streams(id) + (if writeOk then [ClientConn(id)] else []));
  }

  lemma ReapClosesReceived(a: App, b: App, id: nat, writeOk: bool)
    requires ReapDescDelta(a, b, id, writeOk)
    requires ClosesGood(a)
    requires ClientConn(id) in Receipts(a.trace) && AllStreams(Receipts(a.trace), id)
    ensures forall d :: d in Closes(b.trace) ==> d in Receipts(b.trace)
    ensures forall d :: d in Closes(b.trace) && d.Stream? ==> AllStreams(Receipts(b.trace), d.req)
  {
    ServeClosesDistinct(id, true, writeOk);
  }

  lemma ReapClosesComplete(a: App, b: App, id: nat, writeOk: bool)
    requires ReapStateDelta(a, b, id) && ReapDescDelta(a, b, id, writeOk)
    requires ClosesGood(a)
    ensures forall j: nat :: j < b.served && j !in b.pending && j !in b.escaped && AllStreams(Receipts(b.trace), j) ==> AllStreams(Closes(b.trace), j)
  {
    forall j: nat | j < b.served && j !in b.pending && j !in b.escaped && AllStreams(Receipts(b.trace), j)
      ensures AllStreams(Closes(b.trace), j)
    {
      if j != id {
        assert j !in a.pending && j !in a.escaped;
        assert AllStreams(Closes(a.trace), j);
      }
    }
  }

  lemma ReapKeepsCloses(a: App, b: App, id: nat, writeOk: bool)
    requires ReapStateDelta(a, b, id) && ReapDescDelta(a, b, id, writeOk)
    requires ClosesGood(a)
    requires id < a.served && ClientConn(id) in Receipts(a.trace)
    requires AllStreams(Receipts(a.trace), id) && Untouched(Closes(a.trace), id)
    ensures ClosesGood(b)
  {
    ReapClosesDistinct(a, b, id, writeOk);
    ReapClosesReceived(a, b, id, writeOk);
    ReapClosesComplete(a, b, id, writeOk);
  }

  lemma ReapKeepsPending(a: App, b: App, id: nat, status: Option<ExitCode>, writeOk: bool)
    requires ReapStateDelta(a, b, id) && ReapDescDelta(a, b, id, writeOk) && ReapLineDelta(a, b, id, status, writeOk)
    requires PendingGood(a)
    ensures PendingGood(b)
  {
    ServeClosesDistinct(id, true, writeOk);
    forall j | j in b.pending
      ensures Untouched(Closes(b.trace), j) && ClientLines(b.trace, j) == []
    {
      assert j in a.pending && j != id;
      assert ClientLines(b.trace, j) == ClientLines(a.trace, j) + [];
    }
  }

  lemma ReapKeepsClients(a: App, b: App, id: nat, status: Option<ExitCode>, writeOk: bool)
    requires ReapStateDelta(a, b, id) && ReapDescDelta(a, b, id, writeOk) && ReapLineDelta(a, b, id, status, writeOk)
    requires ClientsGood(a)
    requires id < a.served && ClientLines(a.trace, id) == [] && Untouched(Closes(a.trace), id)
    ensures ClientsGood(b)
  {
    ReapClientsOnce(a, b, id, status, writeOk);
    ReapClientsClosed(a, b, id, status, writeOk);
  }

  /** After a reaper, each client still has at most one line, and only
      clients already served have any. */
  lemma ReapClientsOnce(a: App, b: App, id: nat, status: Option<ExitCode>, writeOk: bool)
    requires ReapStateDelta(a, b, id) && ReapLineDelta(a, b, id, status, writeOk)
    requires ClientsGood(a)
    requires id < a.served && ClientLines(a.trace, id) == []
    ensures forall q: nat :: |ClientLines(b.trace, q)| <= 1
    ensures forall q: nat :: q >= b.served ==> ClientLines(b.trace, q) == []
  {
    forall q: nat
      ensures |ClientLines(b.trace, q)| <= 1
      ensures q >= b.served ==> ClientLines(b.trace, q) == []
    {
      if q != id {
        assert ClientLines(b.trace, q) == ClientLines(a.trace, q) + [];
      }
    }
  }

  /** After a reaper, a closed client has exactly one line. */
  lemma ReapClientsClosed(a: App, b: App, id: nat, status: Option<ExitCode>, writeOk: bool)
    requires ReapDescDelta(a, b, id, writeOk) && ReapLineDelta(a, b, id, status, writeOk)
    requires ClientsGood(a)
    requires ClientLines(a.trace, id) == [] && Untouched(Closes(a.trace), id)
    ensures forall q: nat :: ClientConn(q) in Closes(b.trace) ==> |ClientLines(b.trace, q)| == 1
  {
    forall q: nat | ClientConn(q) in Closes(b.trace)
      ensures |ClientLines(b.trace, q)| == 1
    {
      if q != id {
        assert ClientLines(b.trace, q) == ClientLines(a.trace, q) + [];
        assert ClientConn(q) in Closes(a.trace);
      }
    }
  }

  /** A reaper finishing keeps the invariant. */
  lemma ReapKeepsGood(a: App, id: nat, status: Option<ExitCode>, writeOk: bool)
    requires Good(a)
    ensures Good(Reap(a, id, status, writeOk))
  {
    if id in a.pending {
      var b := Reap(a, id, status, writeOk);
      ReapNextDelta(a, id, status, writeOk);
      assert ClientConn(id) in Receipts(a.trace);
      ReapKeepsCloses(a, b, id, writeOk);
      ReapKeepsPending(a, b, id, status, writeOk);
      ReapKeepsClients(a, b, id, status, writeOk);
    }
  }

  /** Every turn of the loop keeps the invariant. */
  lemma StepKeepsGood(cfg: Config, m: Master, ev: Event)
    requires Good(m.app)
    ensures Good(Step(cfg, m, ev).app)
  {
    if m.status == Running {
      match ev
      case Stale =>
      case Accept(None) =>
      case Accept(Some(r)) => ServeKeepsGood(cfg, m.app, r);
      case ReaperDone(id, status, writeOk) => ReapKeepsGood(m.app, id, status, writeOk);
    }
  }

  lemma {:induction false} LoopKeepsGood(cfg: Config, m: Master, evs: seq<Event>)
    requires Good(m.app)
    ensures Good(Loop(cfg, m, evs).app)
    decreases |evs|
  {
    if |evs| > 0 {
      StepKeepsGood(cfg, m, evs[0]);
      LoopKeepsGood(cfg, Step(cfg, m, evs[0]), evs[1..]);
    }
  }

  /** The state `run` starts from satisfies the invariant. */
  lemma StartGood(watched: set<Path>)
    ensures Good(App(Cache({}, watched), [WatcherStarted], 0, map[], {}))
  {
    var t := [WatcherStarted];
    ProjectOne(WatcherStarted, ReceivedBy);
    ProjectOne(WatcherStarted, ClosedBy);
    ProjectOne(WatcherStarted, HookOf);
    ProjectOne(WatcherStarted, ManagerLineOf);
    forall q
      ensures ClientLines(t, q) == []
    {
      ClientLinesNone(t, q);
    }
  }

  /** Every state `run` reaches satisfies the invariant. */
  lemma RunGood(cfg: Config, watched: set<Path>, evs: seq<Event>)
    ensures Good(Run(cfg, watched, evs).app)
  {
    StartGood(watched);
    LoopKeepsGood(cfg, Master(App(Cache({}, watched), [WatcherStarted], 0, map[], {}), Running), evs);
  }
}

=== FILE: master_runs.dfy ===
/** What holds of every run of the master: the invariant's consequences for
    descriptors, clients and setup hooks, how a reaper reports, and how the
    loop ends. */
module MasterRuns {
  import opened Base
  import opened SetupCache
  import opened Trace
  import opened Serve
  import opened Master
  import opened MasterProps

  /** In every run each descriptor is closed at most once, and a closed
      descriptor is among those received. */
  lemma RunClosesOnce(cfg: Config, watched: set<Path>, evs: seq<Event>, d: Desc)
    ensures var t := Run(cfg, watched, evs).app.trace;
      CloseCount(t, d) <= 1 && (CloseCount(t, d) == 1 ==> d in Receipts(t))
  {
    var t := Run(cfg, watched, evs).app.trace;
    RunGood(cfg, watched, evs);
    NoDupCount(Closes(t), d);
  }

  /** In every run each client is written at most one status line, and one
      exactly if it was closed; a request the master still waits on has had
      none. */
  lemma RunAnswersOnce(cfg: Config, watched: set<Path>, evs: seq<Event>, id: nat)
    ensures var a := Run(cfg, watched, evs).app;
      && |ClientLines(a.trace, id)| <= 1
      && (ClientConn(id) in Closes(a.trace) ==> |ClientLines(a.trace, id)| == 1)
      && (id in a.pending ==> ClientLines(a.trace, id) == [])
  {
    RunGood(cfg, watched, evs);
  }

  /** A request whose three streams all arrived has all three closed once
      no reaper waits on it; a stream is closed only when all three of its
      request's streams arrived, so a request that received one or two keeps
      them open. */
  lemma RunStreamsDisposed(cfg: Config, watched: set<Path>, evs: seq<Event>, id: nat)
    ensures var a := Run(cfg, watched, evs).app;
      && (id < a.served && id !in a.pending && id !in a.escaped && AllStreams(Receipts(a.trace), id) ==> AllStreams(Closes(a.trace), id))
      && (forall slot :: Stream(id, slot) in Closes(a.trace) ==> AllStreams(Receipts(a.trace), id))
      && (id in a.pending ==> AllStreams(Receipts(a.trace), id) && Untouched(Closes(a.trace), id))
  {
    RunGood(cfg, watched, evs);
  }

  /** Each kind's setup hook runs at most once in a run, and only kinds the
      cache records have run. */
  lemma RunHooksOnce(cfg: Config, watched: set<Path>, evs: seq<Event>, k: Kind)
    ensures var a := Run(cfg, watched, evs).app;
      && multiset(Hooks(a.trace))[k] <= 1
      && (k in Hooks(a.trace) ==> k in a.cache.done)
  {
    var a := Run(cfg, watched, evs).app;
    RunGood(cfg, watched, evs);
    NoDupCount(Hooks(a.trace), k);
  }

  /** A reaper's first effect is waiting for its worker. */
  lemma ReapStartsWaiting(a: App, id: nat, status: Option<ExitCode>, writeOk: bool)
    requires id in a.pending
    ensures var b := Reap(a, id, status, writeOk);
      a.trace < b.trace && b.trace[|a.trace|] == Waited(id, a.pending[id])
  {
    var e := ReapEffects(id, a.pending[id], status, writeOk);
    var w := [Waited(id, a.pending[id])] + StreamCloses(id);
    assert e == w + (if writeOk then Notify(id, status) else []);
    assert e[0] == w[0];
    assert (a.trace + e)[|a.trace|] == e[0];
  }

  /** A reaper that finishes writes its worker's exit status as the one line
      its client receives, then closes the client; without that write the
      client stays open. Either way the three streams are closed and the
      reaper no longer waits. Its effects follow the worker's pid line,
      which the trace before it already holds. */
  lemma ReapReports(a: App, id: nat, status: Option<ExitCode>, writeOk: bool)
    requires PendingGood(a) && id in a.pending
    ensures var b := Reap(a, id, status, writeOk);
      && id !in b.pending
      && ClientLines(b.trace, id) == (if writeOk then [status] else [])
      && AllStreams(Closes(b.trace), id)
      && (ClientConn(id) in Closes(b.trace) <==> writeOk)
      && a.trace < b.trace && PidLine(a.pending[id]) in ManagerLines(a.trace)
      && b.trace[|a.trace|] == Waited(id, a.pending[id])
  {
    assert Untouched(Closes(a.trace), id);
    ReapCloses(a, id, status, writeOk);
    ReapLines(a, id, status, writeOk);
    ReapStartsWaiting(a, id, status, writeOk);
  }

  /** A finishing reaper closes the three streams, and the client exactly
      when the status was written, provided the client was still open. */
  lemma ReapCloses(a: App, id: nat, status: Option<ExitCode>, writeOk: bool)
    requires id in a.pending && ClientConn(id) !in Closes(a.trace)
    ensures var b := Reap(a, id, status, writeOk);
      && AllStreams(Closes(b.trace), id)
      && (ClientConn(id) in Closes(b.trace) <==> writeOk)
  {
    ReapNextDelta(a, id, status, writeOk);
    assert ClientConn(id) !in Streams(id);
  }

  /** A finishing reaper's client gets the status as its only line, and its
      worker's pid had been reported. */
  lemma ReapLines(a: App, id: nat, status: Option<ExitCode>, writeOk: bool)
    requires PendingGood(a) && id in a.pending
    ensures ClientLines(Reap(a, id, status, writeOk).trace, id) == (if writeOk then [status] else [])
    ensures PidLine(a.pending[id]) in ManagerLines(a.trace)
  {
    ReapNextDelta(a, id, status, writeOk);
  }

  /** Once the master has exited or crashed, later events change nothing. */
  lemma {:induction false} HaltedIsFinal(cfg: Config, m: Master, evs: seq<Event>)
    requires m.status != Running
    ensures Loop(cfg, m, evs) == m
    decreases |evs|
  {
    if |evs| > 0 {
      HaltedIsFinal(cfg, Step(cfg, m, evs[0]), evs[1..]);
    }
  }

  /** The loop over two sequences of events is the loop over the second from
      where the first left off. */
  lemma {:induction false} LoopAppend(cfg: Config, m: Master, xs: seq<Event>, ys: seq<Event>)
    ensures Loop(cfg, m, xs + ys) == Loop(cfg, Loop(cfg, m, xs), ys)
    decreases |xs|
  {
    if |xs| == 0 {
      assert xs + ys == ys;
    } else {
      assert (xs + ys)[0] == xs[0];
      assert (xs + ys)[1..] == xs[1..] + ys;
      LoopAppend(cfg, Step(cfg, m, xs[0]), xs[1..], ys);
    }
  }

  /** The loop over a non-empty sequence takes its first turn, then loops
      over the rest. */
  lemma LoopCons(cfg: Config, m: Master, ev: Event, evs: seq<Event>)
    ensures Loop(cfg, m, [ev] + evs) == Loop(cfg, Step(cfg, m, ev), evs)
  {
    assert ([ev] + evs)[0] == ev;
    assert ([ev] + evs)[1..] == evs;
  }

  lemma SplitAt<T>(s: seq<T>, i: nat)
    requires i < |s|
    ensures s == s[..i] + ([s[i]] + s[i + 1..])
  {
  }

  /** `watcher.stale?` ends the loop: the first stale wake-up of a running
      master makes it exit with its state as it was, and nothing after it
      happens. */
  lemma StaleStops(cfg: Config, m: Master, evs: seq<Event>, i: nat)
    requires i < |evs| && evs[i].Stale?
    requires Loop(cfg, m, evs[..i]).status == Running
    ensures Loop(cfg, m, evs) == Master(Loop(cfg, m, evs[..i]).app, Exited)
  {
    var before := Loop(cfg, m, evs[..i]);
    var rest := evs[i + 1..];
    var stopped := Master(before.app, Exited);
    SplitAt(evs, i);
    LoopAppend(cfg, m, evs[..i], [evs[i]] + rest);
    LoopCons(cfg, before, evs[i], rest);
    assert Step(cfg, before, evs[i]) == stopped;
    HaltedIsFinal(cfg, stopped, rest);
  }

  /** How many clients the manager hands over in `evs`. */
  function Accepts(evs: seq<Event>): nat {
    if |evs| == 0 then 0 else (if evs[0].Accept? then 1 else 0) + Accepts(evs[1..])
  }

  /** A master that is still running has served exactly one request per
      client handed over, and none of those ever made it stop. */
  lemma {:induction false} RunningServedAll(cfg: Config, m: Master, evs: seq<Event>)
    requires Loop(cfg, m, evs).status == Running
    ensures m.status == Running
    ensures Loop(cfg, m, evs).app.served == m.app.served + Accepts(evs)
    ensures forall i :: 0 <= i < |evs| ==> !evs[i].Stale? && evs[i] != Accept(None)
    decreases |evs|
  {
    if |evs| > 0 {
      var n := Step(cfg, m, evs[0]);
      if n.status != Running {
        HaltedIsFinal(cfg, n, evs[1..]);
        assert false;
      } else {
        StepRunning(cfg, m, evs[0]);
        RunningServedAll(cfg, n, evs[1..]);
        forall i | 0 <= i < |evs|
          ensures !evs[i].Stale? && evs[i] != Accept(None)
        {
          if i > 0 {
            assert evs[i] == evs[1..][i - 1];
          }
        }
      }
    }
  }

  /** A turn after which the master still runs started from a running
      master, was no stale wake-up and no failed accept, and served one
      request exactly when it was an accept: either a reaper finished, or
      the accepted client's `serve` dispatched a worker. */
  lemma StepRunning(cfg: Config, m: Master, ev: Event)
    requires Step(cfg, m, ev).status == Running
    ensures m.status == Running && !ev.Stale? && ev != Accept(None)
    ensures ev.ReaperDone? || (ev.Accept? && ev.conn.Some? && ServeNext(cfg, m.app, ev.conn.value).outcome.Dispatched?)
    ensures Step(cfg, m, ev).app.served == m.app.served + (if ev.Accept? then 1 else 0)
  {
  }
}

=== FILE: serve.dfy ===
/** `Application#serve`: the per-request handshake, setup, fork and hand-off
    to a reaper, and the rescue path. Every external call is an outcome taken
    from a `Request`; every effect is appended to the master's trace. */
module Serve {
  import opened Base
  import opened SetupCache
  import opened Framing
  import opened Worker
  import opened Trace

  /** What stays fixed across requests: the resolved application root, the
      child's process-wide settings, `JSON.load` (`None` when the payload
      does not decode to a list of strings) and `Spring.command` (which is
      also asked about `nil` when the list is empty). */
  datatype Config = Config(
    root: Path,
    worker: WorkerConfig,
    decode: seq<Byte> -> Option<seq<string>>,
    lookup: Option<string> -> Option<Command>)

  /** The outcome of every external call `serve` makes for one request:
      - readyOk: the empty line to the manager is written;
      - transfers: how many `client.recv_io` calls succeed before one raises;
      - lengthLine: the count read by `client.gets.to_i` (None: the read raised);
      - payload: the bytes the client sends after the length line;
      - hookRaises, loadedAfterHook: whether `command.setup` raises, and
        `$LOADED_FEATURES` after it;
      - reloadOk: the reloader's cleanup and prepare return normally;
      - fork: the child's pid (None: fork raised);
      - hookEscapes, reloadEscapes, forkEscapes: when that call raises,
        whether its exception is outside `StandardError` (a `LoadError` or
        `SyntaxError` from code it loads, `NotImplementedError` from `fork`),
        so that `rescue => e` does not catch it;
      - pidWriteOk: the pid line to the manager is written;
      - reaperStartOk: `Thread.new` starts the reaper (ThreadError otherwise);
      - rescueWriteOk: `client.puts(1)` in the rescue clause is written. */
  datatype Request = Request(
    readyOk: bool,
    transfers: nat,
    lengthLine: Option<nat>,
    payload: seq<Byte>,
    hookRaises: bool,
    loadedAfterHook: seq<Path>,
    reloadOk: bool,
    fork: Option<nat>,
    hookEscapes: bool,
    reloadEscapes: bool,
    forkEscapes: bool,
    pidWriteOk: bool,
    reaperStartOk: bool,
    rescueWriteOk: bool)

  /** Why `serve` (or the accept before it) raised. */
  datatype Failure =
    | AcceptFailed
    | ReadyWriteFailed
    | StreamTransferFailed
    | LengthReadFailed
    | ShortPayload
    | MalformedPayload
    | UnknownCommand
    | SetupRaised
    | ReloadFailed
    | ForkFailed
    | PidWriteFailed
    | ReaperStartFailed
    | StatusWriteFailed

  /** How `serve` ended: it handed worker `pid` to a reaper, or it raised
      `cause`. `rescued` says whether the rescue clause ran, that is whether
      the exception was a `StandardError`; `reported` is the pid the manager
      had already received when starting the reaper raised, a worker that no
      reaper waits for. */
  datatype Outcome = Dispatched(pid: nat) | Raised(cause: Failure, rescued: bool, reported: Option<nat>)

  /** The effects of one call of `serve`, the setup cache after it, and how it
      ended. */
  datatype Attempt = Attempt(effects: seq<Effect>, cache: Cache, outcome: Outcome)

  /** `args.shift`: the command name (nil for an empty list) and the rest. */
  function Shift(args: seq<string>): (r: (Option<string>, seq<string>))
    ensures |args| > 0 ==> r.0 == Some(args[0]) && [args[0]] + r.1 == args
    ensures |args| == 0 ==> r.0 == None && r.1 == []
  {
    if |args| == 0 then (None, []) else (Some(args[0]), args[1..])
  }

  /** The first `k` auxiliary streams of request `id` being received. */
  function Receive(id: nat, k: nat): (r: seq<Effect>)
    ensures |r| == k
    ensures forall i :: 0 <= i < k ==> r[i] == Received(Stream(id, i))
  {
    seq(k, i requires 0 <= i < k => Received(Stream(id, i)))
  }

  /** How many auxiliary streams `serve` receives for request `r`. */
  function Got(r: Request): nat {
    if r.readyOk then Min(r.transfers, 3) else 0
  }

  /** The rescue clause, entered with a `StandardError` after `done`
      happened (`reported` is the pid the manager already has, if any):
      close the streams if all three were received (`streams` is nil
      otherwise), write 1 to the client and close it, re-raise. A failing
      write raises in its place and the client is not closed. */
  function Rescue(done: seq<Effect>, cache: Cache, id: nat, streamsReceived: bool, cause: Failure, writeOk: bool,
                  reported: Option<nat>): (t: Attempt)
    ensures done <= t.effects && t.cache == cache
    ensures t.outcome.Raised? && t.outcome.rescued && t.outcome.reported == reported
    ensures t.outcome.cause == cause <==> writeOk || cause == StatusWriteFailed
    ensures !writeOk ==> t.outcome.cause == StatusWriteFailed
  {
    Attempt(done + RescueTail(id, streamsReceived, writeOk), cache,
            Raised(if writeOk then cause else StatusWriteFailed, true, reported))
  }

  /** A call after the handshake raised `cause`: a `StandardError` enters
      the rescue clause; any other exception leaves `serve` at once, and
      nothing is closed or written. */
  function Fail(done: seq<Effect>, cache: Cache, id: nat, cause: Failure, escapes: bool, writeOk: bool): (t: Attempt)
  {
    if escapes then Attempt(done, cache, Raised(cause, false, None))
    else Rescue(done, cache, id, true, cause, writeOk, None)
  }

  /** The effects of the rescue clause itself. */
  function RescueTail(id: nat, streamsReceived: bool, writeOk: bool): seq<Effect> {
    (if streamsReceived then StreamCloses(id) else []) + (if writeOk then Notify(id, Some(1)) else [])
  }

  /** The part of `serve` after the command is known: setup, then the rest
      of the launch. */
  function Launch(cfg: Config, cache: Cache, id: nat, r: Request, done: seq<Effect>, argv: seq<string>, cmd: Command): (t: Attempt)
    ensures t.outcome.Dispatched? ==> r.fork == Some(t.outcome.pid) && r.pidWriteOk && r.reaperStartOk
    ensures cache.done <= t.cache.done && cache.watched <= t.cache.watched
  {
    AfterSetup(cfg, Setup(cache, cmd, r.hookRaises, r.loadedAfterHook, cfg.root), id, r, done, argv, cmd)
  }

  /** The trace entry of a setup hook that ran. */
  function HookEffects(ran: bool, kind: Kind): seq<Effect> {
    if ran then [SetupHook(kind)] else []
  }

  /** Record the hook if it ran; rescue if it raised, otherwise go on. */
  function AfterSetup(cfg: Config, s: SetupResult, id: nat, r: Request, done: seq<Effect>, argv: seq<string>, cmd: Command): (t: Attempt)
    ensures t.outcome.Dispatched? ==> r.fork == Some(t.outcome.pid) && r.pidWriteOk && r.reaperStartOk
    ensures t.cache == s.cache
  {
    var e := done + HookEffects(s.hookRan, cmd.kind);
    if s.raised then Fail(e, s.cache, id, SetupRaised, r.hookEscapes, r.rescueWriteOk)
    else Dispatch(cfg, s.cache, id, r, e, argv, cmd)
  }

  /** After setup: the reload barrier and fork, then the hand-off. */
  function Dispatch(cfg: Config, cache: Cache, id: nat, r: Request, done: seq<Effect>, argv: seq<string>, cmd: Command): (t: Attempt)
    ensures t.outcome.Dispatched? ==> r.fork == Some(t.outcome.pid) && r.pidWriteOk && r.reaperStartOk
    ensures t.cache == cache
  {
    if !r.reloadOk then Fail(done, cache, id, ReloadFailed, r.reloadEscapes, r.rescueWriteOk)
    else match r.fork
      case None => Fail(done + [ReloadBarrier], cache, id, ForkFailed, r.forkEscapes, r.rescueWriteOk)
      case Some(pid) =>
        HandOff(cache, id, r, done + [ReloadBarrier, Forked(pid, ChildActions(cfg.worker, Streams(id), argv, cmd))], pid)
  }

  /** After the fork: the pid line to the manager, then the reaper's start.
      When `Thread.new` raises, the manager already has the pid. */
  function HandOff(cache: Cache, id: nat, r: Request, done: seq<Effect>, pid: nat): (t: Attempt)
    ensures t.outcome.Dispatched? ==> t.outcome.pid == pid && r.pidWriteOk && r.reaperStartOk
    ensures t.cache == cache
  {
    if !r.pidWriteOk then Rescue(done, cache, id, true, PidWriteFailed, r.rescueWriteOk, None)
    else if !r.reaperStartOk then
      Rescue(done + [ToManager(PidLine(pid))], cache, id, true, ReaperStartFailed, r.rescueWriteOk, Some(pid))
    else Attempt(done + [ToManager(PidLine(pid)), ReaperStarted(id)], cache, Dispatched(pid))
  }

  /** How the handshake of `serve` ended: it raised after `effects`, or it
      produced the argument vector and the command. */
  datatype Handshake =
    | Broken(effects: seq<Effect>, cause: Failure)
    | Parsed(effects: seq<Effect>, argv: seq<string>, cmd: Command)

  /** The handshake: the empty line to the manager, three streams, the length
      line, the payload, its decoding and the command's lookup. */
  function Greet(cfg: Config, id: nat, r: Request): (h: Handshake)
    ensures Opening(id, r) <= h.effects && |h.effects| <= |Opening(id, r)| + 2
    ensures h.Parsed? ==> && Got(r) == 3 && r.lengthLine.Some? && r.lengthLine.value <= |r.payload|
                          && h.effects == Opening(id, r) + [ReadLength(r.lengthLine.value), ReadPayload(r.lengthLine.value)]
  {
    if !r.readyOk then Broken([], ReadyWriteFailed)
    else
      var e := [ToManager(Ready)] + Receive(id, Got(r));
      if Got(r) < 3 then Broken(e, StreamTransferFailed)
      else match r.lengthLine
      case None => Broken(e, LengthReadFailed)
      case Some(n) =>
        var e := e + [ReadLength(n)];
        match ReadExactly(n, r.payload)
        case None => Broken(e, ShortPayload)
        case Some(bytes) =>
          var e := e + [ReadPayload(n)];
          match cfg.decode(bytes)
          case None => Broken(e, MalformedPayload)
          case Some(args) =>
            var (name, argv) := Shift(args);
            match cfg.lookup(name)
            case None => Broken(e, UnknownCommand)
            case Some(cmd) => Parsed(e, argv, cmd)
  }

  /** `serve(client)` for the request numbered `id`. */
  function Handle(cfg: Config, cache: Cache, id: nat, r: Request): (t: Attempt)
    ensures t.outcome.Dispatched? ==> Got(r) == 3 && r.fork == Some(t.outcome.pid) && r.pidWriteOk && r.reaperStartOk
    ensures cache.done <= t.cache.done && cache.watched <= t.cache.watched
  {
    match Greet(cfg, id, r)
    case Broken(e, cause) => Rescue(e, cache, id, Got(r) == 3, cause, r.rescueWriteOk, None)
    case Parsed(e, argv, cmd) => Launch(cfg, cache, id, r, e, argv, cmd)
  }

  /** The effects `serve` has between the handshake's start and its end:
      reading the frame, the setup hook, the reload barrier and the fork. */
  ghost predicate Inner(e: seq<Effect>) {
    forall i :: 0 <= i < |e| ==> InnerEffect(e[i])
  }

  predicate InnerEffect(x: Effect) {
    x.ReadLength? || x.ReadPayload? || x.SetupHook? || x.ReloadBarrier? || x.Forked?
  }

  /** What `serve` does before anything can go wrong with the streams: the
      empty line to the manager, then the streams that arrive. */
  function Opening(id: nat, r: Request): seq<Effect> {
    if r.readyOk then [ToManager(Ready)] + Receive(id, Got(r)) else []
  }

  /** The pid line of a worker reported before `serve` raised. */
  function Reported(reported: Option<nat>): seq<Effect> {
    match reported
    case None => []
    case Some(pid) => [ToManager(PidLine(pid))]
  }

  /** How a run of `serve` with outcome `o` ends: the pid line and the
      reaper's start when it dispatched a worker; otherwise a pid line
      already written, then the rescue clause when it ran. */
  function Ending(id: nat, streamsReceived: bool, writeOk: bool, o: Outcome): seq<Effect> {
    match o
    case Dispatched(pid) => [ToManager(PidLine(pid)), ReaperStarted(id)]
    case Raised(_, rescued, reported) =>
      Reported(reported) + (if rescued then RescueTail(id, streamsReceived, writeOk) else [])
  }

  /** `t` ended after `done` and then `mid`, as its outcome says. */
  ghost predicate EndsAfter(t: Attempt, id: nat, r: Request, streamsReceived: bool, done: seq<Effect>, mid: seq<Effect>) {
    t.effects == done + mid + Ending(id, streamsReceived, r.rescueWriteOk, t.outcome)
  }

  lemma EndsAfterAssoc(t: Attempt, id: nat, r: Request, streamsReceived: bool, done: seq<Effect>, x: seq<Effect>, y: seq<Effect>)
    requires EndsAfter(t, id, r, streamsReceived, done + x, y)
    ensures EndsAfter(t, id, r, streamsReceived, done, x + y)
  {
    AppendAssoc(done, x, y);
  }

  lemma HandOffShape(cache: Cache, id: nat, r: Request, done: seq<Effect>, pid: nat)
    ensures HandOff(cache, id, r, done, pid).cache == cache
    ensures EndsAfter(HandOff(cache, id, r, done, pid), id, r, true, done, [])
  {
    assert done + [] == done;
    var tail := RescueTail(id, true, r.rescueWriteOk);
    if !r.pidWriteOk {
      assert [] + tail == tail;
    } else if !r.reaperStartOk {
      AppendAssoc(done, [ToManager(PidLine(pid))], tail);
    }
  }

  lemma FailShape(done: seq<Effect>, cache: Cache, id: nat, r: Request, cause: Failure, escapes: bool)
    ensures Fail(done, cache, id, cause, escapes, r.rescueWriteOk).cache == cache
    ensures EndsAfter(Fail(done, cache, id, cause, escapes, r.rescueWriteOk), id, r, true, done, [])
  {
    assert done + [] == done;
    var tail := RescueTail(id, true, r.rescueWriteOk);
    assert [] + tail == tail;
    var none: seq<Effect> := [];
    assert none + none == none;
  }

  /** What the launch after setup does before it hands off or fails: the
      reload barrier once the reloader succeeded, then the fork once `fork`
      returned a pid. */
  function DispatchRest(cfg: Config, id: nat, r: Request, argv: seq<string>, cmd: Command): seq<Effect> {
    if !r.reloadOk then []
    else match r.fork
      case None => [ReloadBarrier]
      case Some(pid) => [ReloadBarrier, Forked(pid, ChildActions(cfg.worker, Streams(id), argv, cmd))]
  }

  lemma DispatchRestInner(cfg: Config, id: nat, r: Request, argv: seq<string>, cmd: Command)
    ensures Inner(DispatchRest(cfg, id, r, argv, cmd)) && Hooks(DispatchRest(cfg, id, r, argv, cmd)) == []
  {
    ProjectNone(DispatchRest(cfg, id, r, argv, cmd), HookOf);
  }

  /** The shape of the launch after setup: the reload barrier and the fork
      run no hook and leave the cache as it is. */
  lemma DispatchShape(cfg: Config, cache: Cache, id: nat, r: Request, done: seq<Effect>, argv: seq<string>, cmd: Command)
    returns (rest: seq<Effect>)
    ensures rest == DispatchRest(cfg, id, r, argv, cmd)
    ensures Inner(rest) && Hooks(rest) == []
    ensures Dispatch(cfg, cache, id, r, done, argv, cmd).cache == cache
    ensures EndsAfter(Dispatch(cfg, cache, id, r, done, argv, cmd), id, r, true, done, rest)
  {
    rest := DispatchRest(cfg, id, r, argv, cmd);
    DispatchRestInner(cfg, id, r, argv, cmd);
    if !r.reloadOk {
      assert done + rest == done;
      FailShape(done, cache, id, r, ReloadFailed, r.reloadEscapes);
    } else if r.fork.None? {
      FailShape(done + rest, cache, id, r, ForkFailed, r.forkEscapes);
      assert rest + [] == rest;
      EndsAfterAssoc(Fail(done + rest, cache, id, ForkFailed, r.forkEscapes, r.rescueWriteOk), id, r, true, done, rest, []);
    } else {
      var pid := r.fork.value;
      HandOffShape(cache, id, r, done + rest, pid);
      assert rest + [] == rest;
      EndsAfterAssoc(HandOff(cache, id, r, done + rest, pid), id, r, true, done, rest, []);
    }
  }

  lemma HookEffectsViews(ran: bool, kind: Kind)
    ensures Inner(HookEffects(ran, kind))
    ensures Hooks(HookEffects(ran, kind)) == if ran then [kind] else []
  {
    ProjectOne(SetupHook(kind), HookOf);
  }

  /** The shape of the launch once setup has ended: the hook, if it ran, then
      the reload barrier and the fork; the cache is the one setup left. */
  ghost predicate AfterSetupShaped(cfg: Config, s: SetupResult, id: nat, r: Request, done: seq<Effect>, argv: seq<string>, cmd: Command, mid: seq<Effect>) {
    && Inner(mid) && Hooks(mid) == (if s.hookRan then [cmd.kind] else [])
    && AfterSetup(cfg, s, id, r, done, argv, cmd).cache == s.cache
    && EndsAfter(AfterSetup(cfg, s, id, r, done, argv, cmd), id, r, true, done, mid)
  }

  lemma SetupRaisedShape(cfg: Config, s: SetupResult, id: nat, r: Request, done: seq<Effect>, argv: seq<string>, cmd: Command)
    returns (mid: seq<Effect>)
    requires s.raised
    ensures AfterSetupShaped(cfg, s, id, r, done, argv, cmd, mid)
  {
    mid := HookEffects(s.hookRan, cmd.kind);
    HookEffectsViews(s.hookRan, cmd.kind);
    FailShape(done + mid, s.cache, id, r, SetupRaised, r.hookEscapes);
    assert mid + [] == mid;
    EndsAfterAssoc(Fail(done + mid, s.cache, id, SetupRaised, r.hookEscapes, r.rescueWriteOk), id, r, true, done, mid, []);
  }

  lemma SetupReturnedShape(cfg: Config, s: SetupResult, id: nat, r: Request, done: seq<Effect>, argv: seq<string>, cmd: Command)
    returns (mid: seq<Effect>)
    requires !s.raised
    ensures AfterSetupShaped(cfg, s, id, r, done, argv, cmd, mid)
  {
    var hook := HookEffects(s.hookRan, cmd.kind);
    HookEffectsViews(s.hookRan, cmd.kind);
    var rest := DispatchShape(cfg, s.cache, id, r, done + hook, argv, cmd);
    var t := Dispatch(cfg, s.cache, id, r, done + hook, argv, cmd);
    assert AfterSetup(cfg, s, id, r, done, argv, cmd) == t;
    EndsAfterAssoc(t, id, r, true, done, hook, rest);
    mid := hook + rest;
    InnerAppend(hook, rest);
    ProjectAppend(hook, rest, HookOf);
  }

  /** The shape of the part of `serve` after the command is known. */
  lemma LaunchShape(cfg: Config, cache: Cache, id: nat, r: Request, done: seq<Effect>, argv: seq<string>, cmd: Command)
    returns (mid: seq<Effect>)
    ensures Inner(mid)
    ensures EndsAfter(Launch(cfg, cache, id, r, done, argv, cmd), id, r, true, done, mid)
    ensures var t := Launch(cfg, cache, id, r, done, argv, cmd);
      && cache.done <= t.cache.done && cache.watched <= t.cache.watched
      && |Hooks(mid)| <= 1
      && (forall k :: k in Hooks(mid) ==> k !in cache.done && k in t.cache.done)
  {
    var s := Setup(cache, cmd, r.hookRaises, r.loadedAfterHook, cfg.root);
    if s.raised {
      mid := SetupRaisedShape(cfg, s, id, r, done, argv, cmd);
    } else {
      mid := SetupReturnedShape(cfg, s, id, r, done, argv, cmd);
    }
  }

  /** The order of the launch: the setup hook if it ran, then, unless it
      raised, the reload barrier once the reloader succeeded and the fork
      right after it, then how the attempt ended. */
  lemma LaunchOrder(cfg: Config, cache: Cache, id: nat, r: Request, done: seq<Effect>, argv: seq<string>, cmd: Command)
    ensures var s := Setup(cache, cmd, r.hookRaises, r.loadedAfterHook, cfg.root);
      EndsAfter(Launch(cfg, cache, id, r, done, argv, cmd), id, r, true, done,
                HookEffects(s.hookRan, cmd.kind) + (if s.raised then [] else DispatchRest(cfg, id, r, argv, cmd)))
  {
    var s := Setup(cache, cmd, r.hookRaises, r.loadedAfterHook, cfg.root);
    var hook := HookEffects(s.hookRan, cmd.kind);
    if s.raised {
      FailShape(done + hook, s.cache, id, r, SetupRaised, r.hookEscapes);
      assert hook + [] == hook;
      EndsAfterAssoc(Fail(done + hook, s.cache, id, SetupRaised, r.hookEscapes, r.rescueWriteOk), id, r, true, done, hook, []);
    } else {
      var rest := DispatchShape(cfg, s.cache, id, r, done + hook, argv, cmd);
      EndsAfterAssoc(Dispatch(cfg, s.cache, id, r, done + hook, argv, cmd), id, r, true, done, hook, rest);
    }
  }

  /** The handshake's effects: the opening, then at most the two reads. */
  lemma GreetShape(cfg: Config, id: nat, r: Request)
    ensures var h := Greet(cfg, id, r);
      && (h.Parsed? ==> Got(r) == 3)
      && (Got(r) < 3 ==> h.effects == Opening(id, r))
      && (h.effects == Opening(id, r)
          || h.effects == Opening(id, r) + [ReadLength(r.lengthLine.value)]
          || h.effects == Opening(id, r) + [ReadLength(r.lengthLine.value), ReadPayload(r.lengthLine.value)])
  {
    if r.readyOk && Got(r) == 3 && r.lengthLine.Some? {
      var n := r.lengthLine.value;
      var e := Opening(id, r);
      assert e + [ReadLength(n)] + [ReadPayload(n)] == e + [ReadLength(n), ReadPayload(n)];
    }
  }

  /** The handshake's effects after the opening are frame reads only. */
  lemma GreetReads(cfg: Config, id: nat, r: Request) returns (frame: seq<Effect>)
    ensures Greet(cfg, id, r).effects == Opening(id, r) + frame
    ensures Inner(frame) && Hooks(frame) == []
    ensures Got(r) < 3 ==> frame == []
    ensures Greet(cfg, id, r).Parsed? ==> Got(r) == 3
  {
    var h := Greet(cfg, id, r);
    var e := Opening(id, r);
    GreetShape(cfg, id, r);
    frame := h.effects[|e|..];
    assert h.effects == e + frame;
    ProjectNone(frame, HookOf);
  }

  /** Frame reads followed by the launch's effects are inner effects. */
  lemma InnerAppend(x: seq<Effect>, y: seq<Effect>)
    requires Inner(x) && Inner(y)
    ensures Inner(x + y)
  {
    forall i | 0 <= i < |x + y|
      ensures InnerEffect((x + y)[i])
    {
      if i >= |x| {
        assert (x + y)[i] == y[i - |x|];
      }
    }
  }

  /** What every run of `serve` looks like: the opening, inner effects, and
      then either the pid line and the reaper's start, or the rescue clause;
      the setup cache only grows, and a setup hook runs only for a kind that
      was not yet recorded, which is recorded afterwards. */
  ghost predicate ShapedRun(cache: Cache, id: nat, r: Request, t: Attempt, mid: seq<Effect>) {
    && Inner(mid)
    && EndsAfter(t, id, r, Got(r) == 3, Opening(id, r), mid)
    && (Got(r) < 3 ==> mid == [] && t.outcome.Raised? && t.outcome.rescued)
    && (t.outcome.Dispatched? ==> Got(r) == 3)
    && cache.done <= t.cache.done && cache.watched <= t.cache.watched
    && |Hooks(mid)| <= 1
    && (forall k :: k in Hooks(mid) ==> k !in cache.done && k in t.cache.done)
  }

  lemma BrokenShape(cfg: Config, cache: Cache, id: nat, r: Request) returns (mid: seq<Effect>)
    requires Greet(cfg, id, r).Broken?
    ensures ShapedRun(cache, id, r, Handle(cfg, cache, id, r), mid)
  {
    mid := GreetReads(cfg, id, r);
  }

  lemma ParsedShape(cfg: Config, cache: Cache, id: nat, r: Request) returns (mid: seq<Effect>)
    requires Greet(cfg, id, r).Parsed?
    ensures ShapedRun(cache, id, r, Handle(cfg, cache, id, r), mid)
  {
    var h := Greet(cfg, id, r);
    var frame := GreetReads(cfg, id, r);
    var m := LaunchShape(cfg, cache, id, r, h.effects, h.argv, h.cmd);
    var t := Launch(cfg, cache, id, r, h.effects, h.argv, h.cmd);
    assert Handle(cfg, cache, id, r) == t;
    assert EndsAfter(t, id, r, true, Opening(id, r) + frame, m);
    EndsAfterAssoc(t, id, r, true, Opening(id, r), frame, m);
    mid := frame + m;
    InnerAppend(frame, m);
    ProjectAppend(frame, m, HookOf);
  }

  /** Every run of `serve` has the shape `ShapedRun` describes. */
  lemma HandleShape(cfg: Config, cache: Cache, id: nat, r: Request) returns (mid: seq<Effect>)
    ensures ShapedRun(cache, id, r, Handle(cfg, cache, id, r), mid)
  {
    if Greet(cfg, id, r).Broken? {
      mid := BrokenShape(cfg, cache, id, r);
    } else {
      mid := ParsedShape(cfg, cache, id, r);
    }
  }
}

=== FILE: serve_props.dfy ===
/** Properties of one call of `serve`, derived from the shape of its runs:
    what it closes, what it receives, what the manager and the client see,
    the handshake's order, and when it succeeds. */
module ServeProps {
  import opened Base
  import opened SetupCache
  import opened Framing
  import opened Worker
  import opened Trace
  import opened Serve


  /** Receiving the first `k` streams of request `id` receives them in slot
      order. */
  lemma {:induction false} ReceiveReceipts(id: nat, k: nat)
    ensures Receipts(Receive(id, k)) == seq(k, i requires 0 <= i < k => Stream(id, i))
  {
    if k > 0 {
      ReceiveReceipts(id, k - 1);
      assert Receive(id, k) == Receive(id, k - 1) + [Received(Stream(id, k - 1))];
      ProjectAppend(Receive(id, k - 1), [Received(Stream(id, k - 1))], ReceivedBy);
      ProjectOne(Received(Stream(id, k - 1)), ReceivedBy);
    }
  }

  /** Receiving streams closes nothing and writes nothing. */
  lemma ReceiveViews(id: nat, k: nat)
    ensures Receipts(Receive(id, k)) == seq(k, i requires 0 <= i < k => Stream(id, i))
    ensures Closes(Receive(id, k)) == [] && ManagerLines(Receive(id, k)) == [] && Hooks(Receive(id, k)) == []
    ensures forall q :: ClientLines(Receive(id, k), q) == []
  {
    var e := Receive(id, k);
    ReceiveReceipts(id, k);
    ProjectNone(e, ClosedBy);
    ProjectNone(e, ManagerLineOf);
    ProjectNone(e, HookOf);
    forall q
      ensures ClientLines(e, q) == []
    {
      ClientLinesNone(e, q);
    }
  }

  /** The opening: the empty manager line, then the streams that arrived. */
  lemma OpeningViews(id: nat, r: Request)
    ensures Receipts(Opening(id, r)) == Streams(id)[..Got(r)]
    ensures Closes(Opening(id, r)) == [] && Hooks(Opening(id, r)) == []
    ensures ManagerLines(Opening(id, r)) == if r.readyOk then [Ready] else []
    ensures forall q :: ClientLines(Opening(id, r), q) == []
  {
    var k := Got(r);
    ReceiveViews(id, k);
    assert seq(k, i requires 0 <= i < k => Stream(id, i)) == Streams(id)[..k];
    if r.readyOk {
      var head := [ToManager(Ready)];
      ProjectNone(head, ReceivedBy);
      ProjectNone(head, ClosedBy);
      ProjectNone(head, HookOf);
      ProjectOne(ToManager(Ready), ManagerLineOf);
      ProjectAppend(head, Receive(id, k), ReceivedBy);
      ProjectAppend(head, Receive(id, k), ClosedBy);
      ProjectAppend(head, Receive(id, k), HookOf);
      ProjectAppend(head, Receive(id, k), ManagerLineOf);
      forall q
        ensures ClientLines(Opening(id, r), q) == []
      {
        ClientLinesNone(head, q);
        ClientLinesAppend(head, Receive(id, k), q);
      }
    }
  }

  /** The inner effects touch no descriptor and write to nobody. */
  lemma InnerViews(mid: seq<Effect>)
    requires Inner(mid)
    ensures Receipts(mid) == [] && Closes(mid) == [] && ManagerLines(mid) == []
    ensures forall q :: ClientLines(mid, q) == []
  {
    ProjectNone(mid, ReceivedBy);
    ProjectNone(mid, ClosedBy);
    ProjectNone(mid, ManagerLineOf);
    forall q
      ensures ClientLines(mid, q) == []
    {
      ClientLinesNone(mid, q);
    }
  }

  /** What the rescue clause closes: the three streams when they were
      received, then the client when `1` was written to it. */
  lemma RescueTailCloses(id: nat, streamsReceived: bool, writeOk: bool)
    ensures Closes(RescueTail(id, streamsReceived, writeOk))
         == (if streamsReceived then Streams(id) else []) + (if writeOk then [ClientConn(id)] else [])
  {
    var closes := if streamsReceived then StreamCloses(id) else [];
    var notify := if writeOk then Notify(id, Some(1)) else [];
    ProjectAppend(closes, notify, ClosedBy);
    StreamClosesViews(id);
    NotifyViews(id, Some(1));
  }

  /** What the rescue clause writes: `1` to its own client when that write
      succeeds, nothing to the manager, and it receives nothing. */
  lemma RescueTailLines(id: nat, streamsReceived: bool, writeOk: bool)
    ensures Receipts(RescueTail(id, streamsReceived, writeOk)) == []
    ensures ManagerLines(RescueTail(id, streamsReceived, writeOk)) == []
    ensures Hooks(RescueTail(id, streamsReceived, writeOk)) == []
    ensures forall q :: ClientLines(RescueTail(id, streamsReceived, writeOk), q)
                     == if writeOk && q == id then [Some(1)] else []
  {
    var closes := if streamsReceived then StreamCloses(id) else [];
    var notify := if writeOk then Notify(id, Some(1)) else [];
    StreamClosesViews(id);
    NotifyViews(id, Some(1));
    ProjectAppend(closes, notify, ReceivedBy);
    ProjectAppend(closes, notify, ManagerLineOf);
    ProjectAppend(closes, notify, HookOf);
    forall q
      ensures ClientLines(closes + notify, q) == if writeOk && q == id then [Some(1)] else []
    {
      ClientLinesAppend(closes, notify, q);
    }
  }

  /** The end of a dispatched `serve`: the pid line and the reaper's start. */
  lemma SuccessTailViews(id: nat, pid: nat)
    ensures Closes([ToManager(PidLine(pid)), ReaperStarted(id)]) == []
    ensures Receipts([ToManager(PidLine(pid)), ReaperStarted(id)]) == []
    ensures Hooks([ToManager(PidLine(pid)), ReaperStarted(id)]) == []
    ensures ManagerLines([ToManager(PidLine(pid)), ReaperStarted(id)]) == [PidLine(pid)]
    ensures forall q :: ClientLines([ToManager(PidLine(pid)), ReaperStarted(id)], q) == []
  {
    var e := [ToManager(PidLine(pid)), ReaperStarted(id)];
    assert e == [ToManager(PidLine(pid))] + [ReaperStarted(id)];
    ProjectNone(e, ClosedBy);
    ProjectNone(e, ReceivedBy);
    ProjectNone(e, HookOf);
    ProjectAppend([ToManager(PidLine(pid))], [ReaperStarted(id)], ManagerLineOf);
    ProjectOne(ToManager(PidLine(pid)), ManagerLineOf);
    ProjectOne(ReaperStarted(id), ManagerLineOf);
    forall q
      ensures ClientLines(e, q) == []
    {
      ClientLinesNone(e, q);
    }
  }

  /** A pid line reported before `serve` raised is seen by the manager and
      by no other view. */
  lemma ReportedViews(reported: Option<nat>)
    ensures Closes(Reported(reported)) == [] && Receipts(Reported(reported)) == [] && Hooks(Reported(reported)) == []
    ensures ManagerLines(Reported(reported)) == if reported.Some? then [PidLine(reported.value)] else []
    ensures forall q :: ClientLines(Reported(reported), q) == []
  {
    var e := Reported(reported);
    ProjectNone(e, ClosedBy);
    ProjectNone(e, ReceivedBy);
    ProjectNone(e, HookOf);
    if reported.Some? {
      ProjectOne(ToManager(PidLine(reported.value)), ManagerLineOf);
    }
    forall q
      ensures ClientLines(e, q) == []
    {
      ClientLinesNone(e, q);
    }
  }

  /** The part of a failed run's ending after any reported pid line. */
  function Rescued(id: nat, streamsReceived: bool, writeOk: bool, rescued: bool): seq<Effect> {
    if rescued then RescueTail(id, streamsReceived, writeOk) else []
  }

  /** What the ending of a run closes: nothing when it dispatched a worker
      or the exception escaped; otherwise what the rescue clause closes. */
  lemma EndingCloses(id: nat, streamsReceived: bool, writeOk: bool, o: Outcome)
    ensures Closes(Ending(id, streamsReceived, writeOk, o)) ==
      if o.Dispatched? || !o.rescued then []
      else (if streamsReceived then Streams(id) else []) + (if writeOk then [ClientConn(id)] else [])
  {
    if o.Dispatched? {
      SuccessTailViews(id, o.pid);
    } else {
      var tail := Rescued(id, streamsReceived, writeOk, o.rescued);
      ReportedViews(o.reported);
      ProjectAppend(Reported(o.reported), tail, ClosedBy);
      if o.rescued {
        RescueTailCloses(id, streamsReceived, writeOk);
      }
    }
  }

  /** The pid lines the ending of a run writes to the manager. */
  lemma EndingManagerLines(id: nat, streamsReceived: bool, writeOk: bool, o: Outcome)
    ensures ManagerLines(Ending(id, streamsReceived, writeOk, o)) ==
      match o
      case Dispatched(pid) => [PidLine(pid)]
      case Raised(_, _, reported) => if reported.Some? then [PidLine(reported.value)] else []
  {
    if o.Dispatched? {
      SuccessTailViews(id, o.pid);
    } else {
      var tail := Rescued(id, streamsReceived, writeOk, o.rescued);
      ReportedViews(o.reported);
      ProjectAppend(Reported(o.reported), tail, ManagerLineOf);
      RescueTailLines(id, streamsReceived, writeOk);
    }
  }

  /** What the ending of a run receives and runs: nothing. */
  lemma EndingQuiet(id: nat, streamsReceived: bool, writeOk: bool, o: Outcome)
    ensures Receipts(Ending(id, streamsReceived, writeOk, o)) == [] && Hooks(Ending(id, streamsReceived, writeOk, o)) == []
  {
    if o.Dispatched? {
      SuccessTailViews(id, o.pid);
    } else {
      var tail := Rescued(id, streamsReceived, writeOk, o.rescued);
      ReportedViews(o.reported);
      ProjectAppend(Reported(o.reported), tail, ReceivedBy);
      ProjectAppend(Reported(o.reported), tail, HookOf);
      RescueTailLines(id, streamsReceived, writeOk);
    }
  }

  /** What the ending of a run writes to clients: `1` to its own client
      when the rescue clause ran and that write succeeded. */
  lemma EndingClientLines(id: nat, streamsReceived: bool, writeOk: bool, o: Outcome)
    ensures forall q :: ClientLines(Ending(id, streamsReceived, writeOk, o), q)
                     == if o.Raised? && o.rescued && q == id && writeOk then [Some(1)] else []
  {
    if o.Dispatched? {
      SuccessTailViews(id, o.pid);
    } else {
      var tail := Rescued(id, streamsReceived, writeOk, o.rescued);
      ReportedViews(o.reported);
      RescueTailLines(id, streamsReceived, writeOk);
      forall q
        ensures ClientLines(Reported(o.reported) + tail, q) == if o.rescued && q == id && writeOk then [Some(1)] else []
      {
        ClientLinesAppend(Reported(o.reported), tail, q);
      }
    }
  }

  /** Splits a run with the shape of `serve` into opening, inner effects and
      its ending. */
  lemma ShapeSplit(cache: Cache, id: nat, r: Request, t: Attempt, mid: seq<Effect>)
    requires ShapedRun(cache, id, r, t, mid)
    ensures t.effects == Opening(id, r) + mid + Ending(id, Got(r) == 3, r.rescueWriteOk, t.outcome)
  {
  }

  /** The descriptors a run with the shape of `serve` receives. */
  lemma ShapeReceipts(cache: Cache, id: nat, r: Request, t: Attempt, mid: seq<Effect>)
    requires ShapedRun(cache, id, r, t, mid)
    ensures Receipts(t.effects) == Streams(id)[..Got(r)]
  {
    var ending := Ending(id, Got(r) == 3, r.rescueWriteOk, t.outcome);
    ShapeSplit(cache, id, r, t, mid);
    Project3(Opening(id, r), mid, ending, ReceivedBy);
    OpeningViews(id, r);
    InnerViews(mid);
    EndingQuiet(id, Got(r) == 3, r.rescueWriteOk, t.outcome);
  }

  /** The descriptors a run with the shape of `serve` closes. */
  lemma ShapeCloses(cache: Cache, id: nat, r: Request, t: Attempt, mid: seq<Effect>)
    requires ShapedRun(cache, id, r, t, mid)
    ensures Closes(t.effects) ==
      if t.outcome.Dispatched? || !t.outcome.rescued then []
      else (if Got(r) == 3 then Streams(id) else []) + (if r.rescueWriteOk then [ClientConn(id)] else [])
  {
    var ending := Ending(id, Got(r) == 3, r.rescueWriteOk, t.outcome);
    ShapeSplit(cache, id, r, t, mid);
    Project3(Opening(id, r), mid, ending, ClosedBy);
    OpeningViews(id, r);
    InnerViews(mid);
    EndingCloses(id, Got(r) == 3, r.rescueWriteOk, t.outcome);
  }

  /** The lines a run with the shape of `serve` writes to the manager. */
  lemma ShapeManagerLines(cache: Cache, id: nat, r: Request, t: Attempt, mid: seq<Effect>)
    requires ShapedRun(cache, id, r, t, mid)
    ensures ManagerLines(t.effects) ==
      match t.outcome
      case Dispatched(pid) => [Ready, PidLine(pid)]
      case Raised(_, _, reported) =>
        (if r.readyOk then [Ready] else []) + (if reported.Some? then [PidLine(reported.value)] else [])
  {
    var ending := Ending(id, Got(r) == 3, r.rescueWriteOk, t.outcome);
    ShapeSplit(cache, id, r, t, mid);
    Project3(Opening(id, r), mid, ending, ManagerLineOf);
    OpeningViews(id, r);
    InnerViews(mid);
    EndingManagerLines(id, Got(r) == 3, r.rescueWriteOk, t.outcome);
  }

  /** The lines a run with the shape of `serve` writes to clients. */
  lemma ShapeClientLines(cache: Cache, id: nat, r: Request, t: Attempt, mid: seq<Effect>)
    requires ShapedRun(cache, id, r, t, mid)
    ensures forall q :: ClientLines(t.effects, q)
                     == if t.outcome.Raised? && t.outcome.rescued && q == id && r.rescueWriteOk then [Some(1)] else []
  {
    var ending := Ending(id, Got(r) == 3, r.rescueWriteOk, t.outcome);
    ShapeSplit(cache, id, r, t, mid);
    OpeningViews(id, r);
    InnerViews(mid);
    EndingClientLines(id, Got(r) == 3, r.rescueWriteOk, t.outcome);
    forall q
      ensures ClientLines(t.effects, q)
           == if t.outcome.Raised? && t.outcome.rescued && q == id && r.rescueWriteOk then [Some(1)] else []
    {
      ClientLines3(Opening(id, r), mid, ending, q);
    }
  }

  /** A run with the shape of `serve` runs only the hooks of its inner part. */
  lemma ShapeHooks(cache: Cache, id: nat, r: Request, t: Attempt, mid: seq<Effect>)
    requires ShapedRun(cache, id, r, t, mid)
    ensures Hooks(t.effects) == Hooks(mid)
  {
    var ending := Ending(id, Got(r) == 3, r.rescueWriteOk, t.outcome);
    ShapeSplit(cache, id, r, t, mid);
    Project3(Opening(id, r), mid, ending, HookOf);
    OpeningViews(id, r);
    EndingQuiet(id, Got(r) == 3, r.rescueWriteOk, t.outcome);
  }

  /** What one call of `serve` does to descriptors: it receives the first
      `Got(r)` streams of its own request, in order. When the worker was
      handed to a reaper, or the exception escaped the rescue clause, it
      closes nothing. Otherwise the rescue clause closes the three streams
      if all three had been received and none otherwise, then the client if
      `1` could be written to it. A failure before all three streams arrived
      is always rescued. */
  lemma ServeDescriptors(cfg: Config, cache: Cache, id: nat, r: Request)
    ensures var t := Handle(cfg, cache, id, r);
      && (t.outcome.Dispatched? ==> Got(r) == 3)
      && (Got(r) < 3 ==> t.outcome.Raised? && t.outcome.rescued)
      && Receipts(t.effects) == Streams(id)[..Got(r)]
      && Closes(t.effects) ==
        if t.outcome.Dispatched? || !t.outcome.rescued then []
        else (if Got(r) == 3 then Streams(id) else []) + (if r.rescueWriteOk then [ClientConn(id)] else [])
  {
    var mid := HandleShape(cfg, cache, id, r);
    ShapeReceipts(cache, id, r, Handle(cfg, cache, id, r), mid);
    ShapeCloses(cache, id, r, Handle(cfg, cache, id, r), mid);
  }

  /** What one call of `serve` writes: to the manager, the empty line and
      then the pid on success; after a failure at most the empty line, then
      the pid if it was written before the reaper failed to start. To its
      client it writes nothing on success (the reaper writes later) and `1`
      when the rescue clause ran and that write succeeded; to other clients,
      nothing. The setup hook runs at most once, only for a kind not yet
      recorded, and that kind is recorded; the recorded kinds and watched
      paths only grow. */
  lemma ServeWrites(cfg: Config, cache: Cache, id: nat, r: Request)
    ensures var t := Handle(cfg, cache, id, r);
      && ManagerLines(t.effects) ==
        (match t.outcome
         case Dispatched(pid) => [Ready, PidLine(pid)]
         case Raised(_, _, reported) =>
           (if r.readyOk then [Ready] else []) + (if reported.Some? then [PidLine(reported.value)] else []))
      && (forall q :: ClientLines(t.effects, q)
                   == if t.outcome.Raised? && t.outcome.rescued && q == id && r.rescueWriteOk then [Some(1)] else [])
      && |Hooks(t.effects)| <= 1
      && (forall k :: k in Hooks(t.effects) ==> k !in cache.done && k in t.cache.done)
      && cache.done <= t.cache.done && cache.watched <= t.cache.watched
  {
    var mid := HandleShape(cfg, cache, id, r);
    ShapeManagerLines(cache, id, r, Handle(cfg, cache, id, r), mid);
    ShapeClientLines(cache, id, r, Handle(cfg, cache, id, r), mid);
    ShapeHooks(cache, id, r, Handle(cfg, cache, id, r), mid);
  }

  /** When a stream transfer fails after one or two streams arrived,
      `streams` is still nil in the rescue clause: the streams that did
      arrive are never closed, although the client is. */
  lemma PartialStreamsLeftOpen(cfg: Config, cache: Cache, id: nat, r: Request)
    requires r.readyOk && 0 < r.transfers < 3
    ensures var t := Handle(cfg, cache, id, r);
      && t.outcome.Raised? && t.outcome.rescued
      && (forall slot :: 0 <= slot < r.transfers ==> Stream(id, slot) in Receipts(t.effects) && Stream(id, slot) !in Closes(t.effects))
      && Closes(t.effects) == (if r.rescueWriteOk then [ClientConn(id)] else [])
  {
    ServeDescriptors(cfg, cache, id, r);
    forall slot | 0 <= slot < r.transfers
      ensures Stream(id, slot) in Streams(id)[..Got(r)]
    {
      assert Streams(id)[..Got(r)][slot] == Stream(id, slot);
    }
  }

  /** Whatever `serve` does after the handshake comes after it. */
  lemma HandshakePrefix(cfg: Config, cache: Cache, id: nat, r: Request)
    ensures Greet(cfg, id, r).effects <= Handle(cfg, cache, id, r).effects
  {
    var h := Greet(cfg, id, r);
    if h.Parsed? {
      var mid := LaunchShape(cfg, cache, id, r, h.effects, h.argv, h.cmd);
    }
  }

  /** The handshake's order: the empty line goes to the manager before any
      stream is received, the streams arrive in slot order, the length line
      is read only after all three streams, and the payload right after it.
      Whatever `serve` does next comes after the handshake. */
  lemma HandshakeOrder(cfg: Config, cache: Cache, id: nat, r: Request)
    ensures var h := Greet(cfg, id, r);
      && (!r.readyOk ==> h.effects == [])
      && (r.readyOk ==> |h.effects| >= 1 + Got(r) && h.effects[0] == ToManager(Ready)
                        && h.effects[1..1 + Got(r)] == Receive(id, Got(r)))
      && (|h.effects| > 1 + Got(r) ==> Got(r) == 3 && h.effects[4] == ReadLength(r.lengthLine.value))
      && (|h.effects| > 5 ==> |h.effects| == 6 && h.effects[5] == ReadPayload(r.lengthLine.value))
      && h.effects <= Handle(cfg, cache, id, r).effects
  {
    GreetShape(cfg, id, r);
    if r.readyOk {
      assert Opening(id, r)[1..] == Receive(id, Got(r));
    }
    HandshakePrefix(cfg, cache, id, r);
  }

  /** A dispatched attempt ends with the fork of its worker, the pid line
      and the reaper's start. */
  ghost predicate EndsHandingOff(t: Attempt, id: nat) {
    t.outcome.Dispatched? ==>
      && |t.effects| >= 3
      && t.effects[|t.effects| - 3].Forked? && t.effects[|t.effects| - 3].pid == t.outcome.pid
      && t.effects[|t.effects| - 2] == ToManager(PidLine(t.outcome.pid))
      && t.effects[|t.effects| - 1] == ReaperStarted(id)
  }

  lemma DispatchHandsOff(cfg: Config, cache: Cache, id: nat, r: Request, done: seq<Effect>, argv: seq<string>, cmd: Command)
    ensures EndsHandingOff(Dispatch(cfg, cache, id, r, done, argv, cmd), id)
  {
    if r.reloadOk && r.fork.Some? && r.pidWriteOk && r.reaperStartOk {
      var pid := r.fork.value;
      var e := done + [ReloadBarrier, Forked(pid, ChildActions(cfg.worker, Streams(id), argv, cmd))];
      assert e[|e| - 1] == Forked(pid, ChildActions(cfg.worker, Streams(id), argv, cmd));
    }
  }

  /** On the success path the child is forked, then its pid goes to the
      manager, and only then is the reaper started: nothing follows it. */
  lemma ServeHandsOff(cfg: Config, cache: Cache, id: nat, r: Request)
    ensures var t := Handle(cfg, cache, id, r);
      t.outcome.Dispatched? ==>
        && |t.effects| >= 3
        && t.effects[|t.effects| - 3].Forked? && t.effects[|t.effects| - 3].pid == t.outcome.pid
        && t.effects[|t.effects| - 2] == ToManager(PidLine(t.outcome.pid))
        && t.effects[|t.effects| - 1] == ReaperStarted(id)
  {
    var h := Greet(cfg, id, r);
    if h.Parsed? {
      var s := Setup(cache, h.cmd, r.hookRaises, r.loadedAfterHook, cfg.root);
      AfterSetupHandsOff(cfg, s, id, r, h.effects, h.argv, h.cmd);
      assert Handle(cfg, cache, id, r) == AfterSetup(cfg, s, id, r, h.effects, h.argv, h.cmd);
    }
  }

  lemma AfterSetupHandsOff(cfg: Config, s: SetupResult, id: nat, r: Request, done: seq<Effect>, argv: seq<string>, cmd: Command)
    ensures EndsHandingOff(AfterSetup(cfg, s, id, r, done, argv, cmd), id)
  {
    if !s.raised {
      DispatchHandsOff(cfg, s.cache, id, r, done + HookEffects(s.hookRan, cmd.kind), argv, cmd);
    }
  }

  /** The handshake succeeds: the empty line is written, all three streams
      arrive, the length line and a payload of that size are read, the
      payload decodes to a list, and its first element names a known
      command. */
  ghost predicate Resolved(cfg: Config, r: Request) {
    && r.readyOk && r.transfers >= 3 && r.lengthLine.Some?
    && r.lengthLine.value <= |r.payload|
    && cfg.decode(r.payload[..r.lengthLine.value]).Some?
    && var args := cfg.decode(r.payload[..r.lengthLine.value]).value;
    cfg.lookup(if |args| == 0 then None else Some(args[0])).Some?
  }

  /** The command a successful handshake names. */
  ghost function Resolve(cfg: Config, r: Request): Command
    requires Resolved(cfg, r)
  {
    var args := cfg.decode(r.payload[..r.lengthLine.value]).value;
    cfg.lookup(if |args| == 0 then None else Some(args[0])).value
  }

  /** The argument vector a successful handshake leaves: the decoded list
      without its first element. */
  ghost function Argv(cfg: Config, r: Request): seq<string>
    requires Resolved(cfg, r)
  {
    var args := cfg.decode(r.payload[..r.lengthLine.value]).value;
    if |args| == 0 then [] else args[1..]
  }

  /** The named command's setup hook runs: its kind is not yet recorded and
      it responds to `setup`. */
  ghost predicate HookRuns(cfg: Config, cache: Cache, r: Request)
    requires Resolved(cfg, r)
  {
    var cmd := Resolve(cfg, r);
    cmd.kind !in cache.done && cmd.hasSetup
  }

  /** The named command's setup hook runs and raises. */
  ghost predicate HookRaises(cfg: Config, cache: Cache, r: Request)
    requires Resolved(cfg, r)
  {
    HookRuns(cfg, cache, r) && r.hookRaises
  }

  /** Every step up to and including the pid line succeeds. */
  ghost predicate Launched(cfg: Config, cache: Cache, r: Request) {
    Resolved(cfg, r) && !HookRaises(cfg, cache, r) && r.reloadOk && r.fork.Some? && r.pidWriteOk
  }

  /** The reference condition for a request to reach a worker: every step
      succeeds, the reaper's thread included. */
  ghost predicate Succeeds(cfg: Config, cache: Cache, r: Request) {
    Launched(cfg, cache, r) && r.reaperStartOk
  }

  /** The exception `serve` raises is outside `StandardError`, so the rescue
      clause does not run: only the setup hook, the reloader and `fork` can
      raise one, and each is the first step that fails. */
  ghost predicate Escapes(cfg: Config, cache: Cache, r: Request) {
    && Resolved(cfg, r)
    && if HookRaises(cfg, cache, r) then r.hookEscapes
       else if !r.reloadOk then r.reloadEscapes
       else r.fork.None? && r.forkEscapes
  }

  /** How the launch after setup ends: it dispatches exactly when the
      reloader, `fork`, the pid line and the reaper's start all succeed; the
      pid is reported before a raise exactly when only the reaper's start
      failed; only the reloader and `fork` can raise past the rescue clause. */
  lemma DispatchOutcome(cfg: Config, cache: Cache, id: nat, r: Request, done: seq<Effect>, argv: seq<string>, cmd: Command)
    ensures var o := Dispatch(cfg, cache, id, r, done, argv, cmd).outcome;
      && (o.Dispatched? <==> r.reloadOk && r.fork.Some? && r.pidWriteOk && r.reaperStartOk)
      && (o.Dispatched? ==> o.pid == r.fork.value)
      && (o.Raised? ==> (o.rescued <==> !(if !r.reloadOk then r.reloadEscapes else r.fork.None? && r.forkEscapes)))
      && (o.Raised? ==> (o.reported.Some? <==> r.reloadOk && r.fork.Some? && r.pidWriteOk))
      && (o.Raised? && o.reported.Some? ==> o.reported.value == r.fork.value)
      && (o.Raised? ==> (o.cause == StatusWriteFailed <==> o.rescued && !r.rescueWriteOk))
      && (o.Raised? && !o.rescued ==> o.cause in {ReloadFailed, ForkFailed})
  {
  }

  /** The outcome `o` of `serve` agrees with the reference conditions. */
  ghost predicate Explains(cfg: Config, cache: Cache, r: Request, o: Outcome) {
    && (o.Dispatched? <==> Succeeds(cfg, cache, r))
    && (o.Dispatched? ==> o.pid == r.fork.value)
    && (o.Raised? ==> (o.rescued <==> !Escapes(cfg, cache, r)))
    && (o.Raised? ==> (o.reported.Some? <==> Launched(cfg, cache, r)))
    && (o.Raised? && o.reported.Some? ==> o.reported.value == r.fork.value)
    && (o.Raised? ==> (o.cause == StatusWriteFailed <==> o.rescued && !r.rescueWriteOk))
    && (o.Raised? && !o.rescued ==> o.cause in {SetupRaised, ReloadFailed, ForkFailed})
  }

  /** The handshake yields a command exactly when it succeeds, and then the
      command it names. */
  lemma GreetResolves(cfg: Config, id: nat, r: Request)
    ensures Greet(cfg, id, r).Parsed? <==> Resolved(cfg, r)
    ensures Greet(cfg, id, r).Parsed? ==> Greet(cfg, id, r).cmd == Resolve(cfg, r)
  {
  }

  lemma LaunchExplains(cfg: Config, cache: Cache, id: nat, r: Request, done: seq<Effect>, argv: seq<string>)
    requires Resolved(cfg, r)
    ensures Explains(cfg, cache, r, Launch(cfg, cache, id, r, done, argv, Resolve(cfg, r)).outcome)
  {
    var cmd := Resolve(cfg, r);
    var s := Setup(cache, cmd, r.hookRaises, r.loadedAfterHook, cfg.root);
    assert s.raised <==> HookRaises(cfg, cache, r);
    if !s.raised {
      DispatchExplains(cfg, cache, s.cache, id, r, done + HookEffects(s.hookRan, cmd.kind), argv);
    }
  }

  lemma DispatchExplains(cfg: Config, cache: Cache, cache': Cache, id: nat, r: Request, done: seq<Effect>, argv: seq<string>)
    requires Resolved(cfg, r) && !HookRaises(cfg, cache, r)
    ensures Explains(cfg, cache, r, Dispatch(cfg, cache', id, r, done, argv, Resolve(cfg, r)).outcome)
  {
    DispatchOutcome(cfg, cache', id, r, done, argv, Resolve(cfg, r));
  }

  /** `serve` hands a worker to a reaper exactly when every step succeeds,
      and then reports the pid `fork` returned. Otherwise it raises: the
      rescue clause runs exactly when the exception is a `StandardError`;
      the pid was already written exactly when only the reaper's start
      failed; and the status write's own failure replaces the cause exactly
      when the rescue clause ran and `1` could not be written. */
  lemma ServeDispatchedIff(cfg: Config, cache: Cache, id: nat, r: Request)
    ensures var t := Handle(cfg, cache, id, r);
      && (t.outcome.Dispatched? <==> Succeeds(cfg, cache, r))
      && (t.outcome.Dispatched? ==> t.outcome.pid == r.fork.value)
      && (t.outcome.Raised? ==> (t.outcome.rescued <==> !Escapes(cfg, cache, r)))
      && (t.outcome.Raised? ==> (t.outcome.reported.Some? <==> Launched(cfg, cache, r)))
      && (t.outcome.Raised? && t.outcome.reported.Some? ==> t.outcome.reported.value == r.fork.value)
      && (t.outcome.Raised? ==> (t.outcome.cause == StatusWriteFailed <==> t.outcome.rescued && !r.rescueWriteOk))
      && (t.outcome.Raised? && !t.outcome.rescued ==> t.outcome.cause in {SetupRaised, ReloadFailed, ForkFailed})
  {
    var h := Greet(cfg, id, r);
    GreetResolves(cfg, id, r);
    if h.Parsed? {
      LaunchExplains(cfg, cache, id, r, h.effects, h.argv);
    }
    assert Explains(cfg, cache, r, Handle(cfg, cache, id, r).outcome);
  }

  /** After a successful handshake, `serve` runs the setup hook if it runs
      at all, then, unless the hook raised, the reload barrier once the
      reloader succeeded and the fork right after it; the pid line, the
      reaper's start or the rescue clause come last. */
  lemma ResolvedOrder(cfg: Config, cache: Cache, id: nat, r: Request)
    requires Resolved(cfg, r)
    ensures EndsAfter(Handle(cfg, cache, id, r), id, r, true,
                      Opening(id, r) + [ReadLength(r.lengthLine.value), ReadPayload(r.lengthLine.value)],
                      HookEffects(HookRuns(cfg, cache, r), Resolve(cfg, r).kind)
                      + (if HookRaises(cfg, cache, r) then [] else DispatchRest(cfg, id, r, Argv(cfg, r), Resolve(cfg, r))))
  {
    var h := Greet(cfg, id, r);
    GreetResolves(cfg, id, r);
    assert h.argv == Argv(cfg, r);
    LaunchOrder(cfg, cache, id, r, h.effects, h.argv, h.cmd);
    assert Handle(cfg, cache, id, r) == Launch(cfg, cache, id, r, h.effects, h.argv, h.cmd);
  }

  /** No effect of the handshake, the hook or the ending is the barrier. */
  lemma ResolvedBarrier(cfg: Config, cache: Cache, id: nat, r: Request)
    requires Resolved(cfg, r)
    ensures ReloadBarrier in Handle(cfg, cache, id, r).effects <==> !HookRaises(cfg, cache, r) && r.reloadOk
  {
    ResolvedOrder(cfg, cache, id, r);
    var t := Handle(cfg, cache, id, r);
    var n := r.lengthLine.value;
    var hook := HookEffects(HookRuns(cfg, cache, r), Resolve(cfg, r).kind);
    var rest := if HookRaises(cfg, cache, r) then [] else DispatchRest(cfg, id, r, Argv(cfg, r), Resolve(cfg, r));
    var tail := Ending(id, true, r.rescueWriteOk, t.outcome);
    OpeningNoBarrier(id, r);
    EndingNoBarrier(id, true, r.rescueWriteOk, t.outcome);
    BarrierOnlyInRest(Opening(id, r) + [ReadLength(n), ReadPayload(n)], hook, rest, tail);
  }

  lemma BarrierOnlyInRest(pre: seq<Effect>, hook: seq<Effect>, rest: seq<Effect>, tail: seq<Effect>)
    requires ReloadBarrier !in pre && ReloadBarrier !in tail
    requires forall i :: 0 <= i < |hook| ==> hook[i].SetupHook?
    ensures ReloadBarrier in pre + (hook + rest) + tail <==> ReloadBarrier in rest
  {
  }

  lemma OpeningNoBarrier(id: nat, r: Request)
    ensures ReloadBarrier !in Opening(id, r)
  {
  }

  lemma EndingNoBarrier(id: nat, streamsReceived: bool, writeOk: bool, o: Outcome)
    ensures ReloadBarrier !in Ending(id, streamsReceived, writeOk, o)
  {
    if o.Raised? {
      var tail := if o.rescued then RescueTail(id, streamsReceived, writeOk) else [];
      assert ReloadBarrier !in Reported(o.reported);
      assert ReloadBarrier !in tail;
    }
  }

  /** A failed handshake passes no barrier: its effects are the opening, at
      most the two frame reads, and the rescue clause. */
  lemma BrokenBarrier(cfg: Config, cache: Cache, id: nat, r: Request)
    requires !Resolved(cfg, r)
    ensures ReloadBarrier !in Handle(cfg, cache, id, r).effects
  {
    var h := Greet(cfg, id, r);
    GreetResolves(cfg, id, r);
    GreetShape(cfg, id, r);
    assert ReloadBarrier !in Opening(id, r);
    assert ReloadBarrier !in h.effects;
    var tail := RescueTail(id, Got(r) == 3, r.rescueWriteOk);
    assert Handle(cfg, cache, id, r).effects == h.effects + tail;
    assert ReloadBarrier !in tail;
  }

  /** `serve` runs its steps in the source's order. After a successful
      handshake come the setup hook (when it runs), then, unless it raised,
      the reload barrier (when the reloader succeeds) and the fork right
      after it, then the ending. The barrier is passed exactly when the
      handshake succeeded, the hook did not raise and the reloader returned.
      A dispatched request's trace is, in full: the opening, the length and
      payload reads, the hook, the barrier, the fork of a child running the
      named command, the pid line and the reaper's start. */
  lemma ServeLaunchOrder(cfg: Config, cache: Cache, id: nat, r: Request)
    ensures Resolved(cfg, r) ==>
      EndsAfter(Handle(cfg, cache, id, r), id, r, true,
                Opening(id, r) + [ReadLength(r.lengthLine.value), ReadPayload(r.lengthLine.value)],
                HookEffects(HookRuns(cfg, cache, r), Resolve(cfg, r).kind)
                + (if HookRaises(cfg, cache, r) then [] else DispatchRest(cfg, id, r, Argv(cfg, r), Resolve(cfg, r))))
    ensures ReloadBarrier in Handle(cfg, cache, id, r).effects
        <==> Resolved(cfg, r) && !HookRaises(cfg, cache, r) && r.reloadOk
    ensures var t := Handle(cfg, cache, id, r);
      t.outcome.Dispatched? ==>
        && Resolved(cfg, r)
        && t.effects == Opening(id, r) + [ReadLength(r.lengthLine.value), ReadPayload(r.lengthLine.value)]
                        + HookEffects(HookRuns(cfg, cache, r), Resolve(cfg, r).kind)
                        + [ReloadBarrier, Forked(t.outcome.pid, ChildActions(cfg.worker, Streams(id), Argv(cfg, r), Resolve(cfg, r))),
                           ToManager(PidLine(t.outcome.pid)), ReaperStarted(id)]
  {
    var t := Handle(cfg, cache, id, r);
    if Resolved(cfg, r) {
      ResolvedOrder(cfg, cache, id, r);
      ResolvedBarrier(cfg, cache, id, r);
      if t.outcome.Dispatched? {
        DispatchedTrace(cfg, cache, id, r);
      }
    } else {
      BrokenBarrier(cfg, cache, id, r);
      GreetResolves(cfg, id, r);
    }
  }

  lemma DispatchedTrace(cfg: Config, cache: Cache, id: nat, r: Request)
    requires Resolved(cfg, r) && Handle(cfg, cache, id, r).outcome.Dispatched?
    ensures var t := Handle(cfg, cache, id, r);
      t.effects == Opening(id, r) + [ReadLength(r.lengthLine.value), ReadPayload(r.lengthLine.value)]
                   + HookEffects(HookRuns(cfg, cache, r), Resolve(cfg, r).kind)
                   + [ReloadBarrier, Forked(t.outcome.pid, ChildActions(cfg.worker, Streams(id), Argv(cfg, r), Resolve(cfg, r))),
                      ToManager(PidLine(t.outcome.pid)), ReaperStarted(id)]
  {
    var t := Handle(cfg, cache, id, r);
    ResolvedOrder(cfg, cache, id, r);
    ServeDispatchedIff(cfg, cache, id, r);
    var pid := t.outcome.pid;
    var pre := Opening(id, r) + [ReadLength(r.lengthLine.value), ReadPayload(r.lengthLine.value)];
    var hook := HookEffects(HookRuns(cfg, cache, r), Resolve(cfg, r).kind);
    var f := Forked(pid, ChildActions(cfg.worker, Streams(id), Argv(cfg, r), Resolve(cfg, r)));
    assert DispatchRest(cfg, id, r, Argv(cfg, r), Resolve(cfg, r)) == [ReloadBarrier, f];
    assert t.effects == pre + (hook + [ReloadBarrier, f]) + [ToManager(PidLine(pid)), ReaperStarted(id)];
    assert [ReloadBarrier, f] + [ToManager(PidLine(pid)), ReaperStarted(id)]
        == [ReloadBarrier, f, ToManager(PidLine(pid)), ReaperStarted(id)];
    AppendAssoc(pre, hook, [ReloadBarrier, f]);
    AppendAssoc(pre + hook, [ReloadBarrier, f], [ToManager(PidLine(pid)), ReaperStarted(id)]);
  }

  /** A request whose handshake succeeds reaches a worker: the payload of
      the announced size is read, and the forked child runs the looked-up
      command with the remaining arguments as its argument vector. */
  lemma ParsedRequestReachesWorker(cfg: Config, cache: Cache, id: nat, r: Request, n: nat,
                                   args: seq<string>, cmd: Command, pid: nat)
    requires r.lengthLine == Some(n) && n <= |r.payload|
    requires cfg.decode(r.payload[..n]) == Some(args) && |args| > 0
    requires cfg.lookup(Some(args[0])) == Some(cmd)
    requires r.readyOk && r.transfers >= 3
    requires !(cmd.kind !in cache.done && cmd.hasSetup && r.hookRaises)
    requires r.reloadOk && r.fork == Some(pid) && r.pidWriteOk && r.reaperStartOk
    ensures var t := Handle(cfg, cache, id, r);
      && t.outcome == Dispatched(pid)
      && ReadPayload(n) in t.effects
      && Forked(pid, ChildActions(cfg.worker, Streams(id), args[1..], cmd)) in t.effects
  {
    var h := Greet(cfg, id, r);
    assert h == Parsed(Opening(id, r) + [ReadLength(n)] + [ReadPayload(n)], args[1..], cmd);
    var s := Setup(cache, cmd, r.hookRaises, r.loadedAfterHook, cfg.root);
    var e := h.effects + HookEffects(s.hookRan, cmd.kind);
    var f := Forked(pid, ChildActions(cfg.worker, Streams(id), args[1..], cmd));
    var t := Handle(cfg, cache, id, r);
    assert t == HandOff(s.cache, id, r, e + [ReloadBarrier, f], pid);
    assert t.effects == e + [ReloadBarrier, f] + [ToManager(PidLine(pid)), ReaperStarted(id)];
    assert t.effects[|h.effects| - 1] == h.effects[|h.effects| - 1] == ReadPayload(n);
    assert t.effects[|e| + 1] == f;
  }

  /** A client that sends a frame holding the encoded arguments reaches a
      worker: the length line is read as the payload's size, the payload is
      read back intact, and the forked child runs the looked-up command with
      the remaining arguments as its argument vector. */
  lemma FramedRequestReachesWorker(cfg: Config, cache: Cache, id: nat, r: Request,
                                   wire: seq<Byte>, line: seq<Byte>, enc: seq<Byte>, rest: seq<Byte>,
                                   args: seq<string>, cmd: Command, pid: nat)
    requires wire == Frame(enc) + rest
    requires SplitLine(wire) == Some((line, r.payload))
    requires r.lengthLine == ParseLength(line)
    requires cfg.decode(enc) == Some(args) && |args| > 0
    requires cfg.lookup(Some(args[0])) == Some(cmd)
    requires r.readyOk && r.transfers >= 3
    requires !(cmd.kind !in cache.done && cmd.hasSetup && r.hookRaises)
    requires r.reloadOk && r.fork == Some(pid) && r.pidWriteOk && r.reaperStartOk
    ensures var t := Handle(cfg, cache, id, r);
      && t.outcome == Dispatched(pid)
      && ReadPayload(|enc|) in t.effects
      && Forked(pid, ChildActions(cfg.worker, Streams(id), args[1..], cmd)) in t.effects
  {
    FrameSplits(enc, rest);
    assert r.payload == enc + rest && r.lengthLine == Some(|enc|);
    assert r.payload[..|enc|] == enc;
    ParsedRequestReachesWorker(cfg, cache, id, r, |enc|, args, cmd, pid);
  }
}

=== FILE: setup_cache.dfy ===
/** The one-time setup cache (`Application#setup`): the set of command kinds
    whose setup already ran, and the collection of paths handed to the watcher. */
module SetupCache {
  import opened Base
  import Features

  /** `done` is `@setup`; `watched` is everything passed to `watcher.add`. */
  datatype Cache = Cache(done: set<Kind>, watched: set<Path>)

  /** The cache after `setup`, whether the command's hook ran, and whether it
      raised (which makes `setup` raise as well). */
  datatype SetupResult = SetupResult(cache: Cache, hookRan: bool, raised: bool)

  /** `setup(command)`. The kind is recorded before the hook runs. When the hook
      returns normally, the application's loaded features (computed from
      `loadedAfterHook`, the value of `$LOADED_FEATURES` at that moment) are
      added to the watcher; when it raises, the watcher is left alone. */
  function Setup(c: Cache, cmd: Command, hookRaises: bool, loadedAfterHook: seq<Path>, root: Path): (r: SetupResult)
    ensures r.cache.done == c.done + {cmd.kind}
    ensures r.hookRan <==> cmd.kind !in c.done && cmd.hasSetup
    ensures r.raised <==> r.hookRan && hookRaises
    ensures c.watched <= r.cache.watched
    ensures r.cache.watched != c.watched ==> r.hookRan && !r.raised
    ensures r.hookRan && !r.raised ==>
      forall f :: f in loadedAfterHook && StartsWith(f, root) ==> f in r.cache.watched
    ensures forall f :: f in r.cache.watched && f !in c.watched ==> f in loadedAfterHook && StartsWith(f, root)
  {
    if cmd.kind in c.done then
      SetupResult(c, false, false)
    else
      var recorded := c.(done := c.done + {cmd.kind});
      if !cmd.hasSetup then
        SetupResult(recorded, false, false)
      else if hookRaises then
        SetupResult(recorded, true, true)
      else
        var added := Features.LoadedApplicationFeatures(loadedAfterHook, root);
        Features.FeaturesMembers(loadedAfterHook, root);
        SetupResult(recorded.(watched := c.watched + set f | f in added), true, false)
  }

  /** Once `setup` returned or raised for a kind, every later call for a command
      of the same kind is a no-op, whatever its hook would do: the hook of a
      kind runs at most once, and is not retried after it raised. */
  lemma SetupIdempotent(c: Cache, cmd: Command, raises1: bool, loaded1: seq<Path>,
                        cmd2: Command, raises2: bool, loaded2: seq<Path>, root: Path)
    requires cmd2.kind == cmd.kind
    ensures var first := Setup(c, cmd, raises1, loaded1, root);
            Setup(first.cache, cmd2, raises2, loaded2, root) == SetupResult(first.cache, false, false)
  {
  }

  /** A command without a `setup` hook is still recorded, and the watcher is
      untouched. */
  lemma SetupWithoutHook(c: Cache, cmd: Command, raises: bool, loaded: seq<Path>, root: Path)
    requires !cmd.hasSetup
    ensures Setup(c, cmd, raises, loaded, root).cache == c.(done := c.done + {cmd.kind})
    ensures !Setup(c, cmd, raises, loaded, root).hookRan
  {
  }
}

=== FILE: trace.dfy ===
/** The observable effects of the master process, in the order they happen,
    and the views of that trace that the protocol talks about: the lines
    written to the manager, the lines written to one client, and how often a
    descriptor was closed. */
module Trace {
  import opened Base
  import opened Worker

  /** A line written on the manager channel: the empty readiness line
      (`manager.puts`) or a worker's pid (`manager.puts pid`). */
  datatype ManagerLine = Ready | PidLine(pid: nat)

  datatype Effect =
    | WatcherStarted                              // watcher.start
    | Received(d: Desc)                           // recv_io
    | ToManager(line: ManagerLine)                // manager.puts
    | ReadLength(n: nat)                          // client.gets, read as the count n
    | ReadPayload(n: nat)                         // client.read(n)
    | SetupHook(kind: Kind)                       // command.setup
    | ReloadBarrier                               // Reloader.cleanup! and prepare!
    | Forked(pid: nat, child: seq<ChildAction>)   // fork, with what the child does
    | ReaperStarted(req: nat)                     // Thread.new for request req
    | Waited(req: nat, pid: nat)                  // Process.wait2 pid, in req's reaper
    | ToClient(req: nat, status: Option<ExitCode>) // client.puts(status); None is nil
    | Close(d: Desc)                              // d.close

  /** The part of `t` that `view` picks out, in order. */
  function Project<T>(t: seq<Effect>, view: Effect -> Option<T>): seq<T> {
    if |t| == 0 then []
    else (match view(t[0]) case Some(x) => [x] case None => []) + Project(t[1..], view)
  }

  lemma {:induction false} ProjectAppend<T>(a: seq<Effect>, b: seq<Effect>, view: Effect -> Option<T>)
    ensures Project(a + b, view) == Project(a, view) + Project(b, view)
  {
    if |a| == 0 {
      assert a + b == b;
    } else {
      assert (a + b)[0] == a[0];
      assert (a + b)[1..] == a[1..] + b;
      ProjectAppend(a[1..], b, view);
    }
  }

  lemma ProjectOne<T>(e: Effect, view: Effect -> Option<T>)
    ensures Project([e], view) == match view(e) case Some(x) => [x] case None => []
  {
    assert [e][1..] == [];
  }

  lemma {:induction false} ProjectNone<T>(t: seq<Effect>, view: Effect -> Option<T>)
    requires forall i :: 0 <= i < |t| ==> view(t[i]).None?
    ensures Project(t, view) == []
  {
    if |t| > 0 {
      ProjectNone(t[1..], view);
    }
  }

  function ClosedBy(e: Effect): Option<Desc> {
    if e.Close? then Some(e.d) else None
  }

  function ReceivedBy(e: Effect): Option<Desc> {
    if e.Received? then Some(e.d) else None
  }

  function HookOf(e: Effect): Option<Kind> {
    if e.SetupHook? then Some(e.kind) else None
  }

  function ManagerLineOf(e: Effect): Option<ManagerLine> {
    if e.ToManager? then Some(e.line) else None
  }

  /** The descriptors closed in `t`, in order. */
  function Closes(t: seq<Effect>): seq<Desc> {
    Project(t, ClosedBy)
  }

  /** The descriptors received in `t`, in order. */
  function Receipts(t: seq<Effect>): seq<Desc> {
    Project(t, ReceivedBy)
  }

  /** The kinds whose setup hook ran in `t`, in order. */
  function Hooks(t: seq<Effect>): seq<Kind> {
    Project(t, HookOf)
  }

  /** The lines written to the manager channel, in order. */
  function ManagerLines(t: seq<Effect>): seq<ManagerLine> {
    Project(t, ManagerLineOf)
  }

  /** The status lines written to the client of request `req`, in order. */
  function ClientLines(t: seq<Effect>, req: nat): seq<Option<ExitCode>> {
    if |t| == 0 then []
    else (if t[0].ToClient? && t[0].req == req then [t[0].status] else []) + ClientLines(t[1..], req)
  }

  lemma {:induction false} ClientLinesAppend(a: seq<Effect>, b: seq<Effect>, req: nat)
    ensures ClientLines(a + b, req) == ClientLines(a, req) + ClientLines(b, req)
  {
    if |a| == 0 {
      assert a + b == b;
    } else {
      assert (a + b)[0] == a[0];
      assert (a + b)[1..] == a[1..] + b;
      ClientLinesAppend(a[1..], b, req);
      assert ClientLines(a + b, req)
          == (if a[0].ToClient? && a[0].req == req then [a[0].status] else []) + ClientLines(a[1..] + b, req);
    }
  }

  /** A trace that writes nothing to any client. */
  lemma {:induction false} ClientLinesNone(t: seq<Effect>, req: nat)
    requires forall i :: 0 <= i < |t| ==> !t[i].ToClient?
    ensures ClientLines(t, req) == []
  {
    if |t| > 0 {
      ClientLinesNone(t[1..], req);
    }
  }

  /** Closing the three streams of request `id`, in slot order. */
  function StreamCloses(id: nat): seq<Effect> {
    [Close(Stream(id, 0)), Close(Stream(id, 1)), Close(Stream(id, 2))]
  }

  /** Writing `status` to the client of request `id`, then closing it. */
  function Notify(id: nat, status: Option<ExitCode>): seq<Effect> {
    [ToClient(id, status), Close(ClientConn(id))]
  }

  lemma Project3<T>(x: seq<Effect>, y: seq<Effect>, z: seq<Effect>, view: Effect -> Option<T>)
    ensures Project(x + y + z, view) == Project(x, view) + Project(y, view) + Project(z, view)
  {
    ProjectAppend(x, y, view);
    ProjectAppend(x + y, z, view);
  }

  lemma ClientLines3(x: seq<Effect>, y: seq<Effect>, z: seq<Effect>, req: nat)
    ensures ClientLines(x + y + z, req) == ClientLines(x, req) + ClientLines(y, req) + ClientLines(z, req)
  {
    ClientLinesAppend(x, y, req);
    ClientLinesAppend(x + y, z, req);
  }

  /** Closing the streams closes exactly them, in slot order, and does
      nothing else the views see. */
  lemma StreamClosesViews(id: nat)
    ensures Closes(StreamCloses(id)) == Streams(id)
    ensures Receipts(StreamCloses(id)) == [] && Hooks(StreamCloses(id)) == [] && ManagerLines(StreamCloses(id)) == []
    ensures forall q :: ClientLines(StreamCloses(id), q) == []
  {
    StreamClosesCloses(id);
    StreamClosesLines(id);
  }

  lemma StreamClosesCloses(id: nat)
    ensures Closes(StreamCloses(id)) == Streams(id)
  {
    var c0, c1, c2 := Close(Stream(id, 0)), Close(Stream(id, 1)), Close(Stream(id, 2));
    assert StreamCloses(id) == [c0] + [c1] + [c2];
    Project3([c0], [c1], [c2], ClosedBy);
    ProjectOne(c0, ClosedBy);
    ProjectOne(c1, ClosedBy);
    ProjectOne(c2, ClosedBy);
  }

  lemma StreamClosesLines(id: nat)
    ensures Receipts(StreamCloses(id)) == [] && Hooks(StreamCloses(id)) == [] && ManagerLines(StreamCloses(id)) == []
    ensures forall q :: ClientLines(StreamCloses(id), q) == []
  {
    var c := StreamCloses(id);
    ProjectNone(c, ReceivedBy);
    ProjectNone(c, HookOf);
    ProjectNone(c, ManagerLineOf);
    forall q
      ensures ClientLines(c, q) == []
    {
      ClientLinesNone(c, q);
    }
  }

  /** Notifying a client writes `status` to it alone, then closes it. */
  lemma NotifyViews(id: nat, status: Option<ExitCode>)
    ensures Closes(Notify(id, status)) == [ClientConn(id)]
    ensures Receipts(Notify(id, status)) == [] && Hooks(Notify(id, status)) == [] && ManagerLines(Notify(id, status)) == []
    ensures forall q :: ClientLines(Notify(id, status), q) == if q == id then [status] else []
  {
    NotifyCloses(id, status);
    NotifyLines(id, status);
  }

  lemma NotifyCloses(id: nat, status: Option<ExitCode>)
    ensures Closes(Notify(id, status)) == [ClientConn(id)]
  {
    ProjectAppend([ToClient(id, status)], [Close(ClientConn(id))], ClosedBy);
    ProjectOne(ToClient(id, status), ClosedBy);
    ProjectOne(Close(ClientConn(id)), ClosedBy);
  }

  lemma NotifyLines(id: nat, status: Option<ExitCode>)
    ensures Receipts(Notify(id, status)) == [] && Hooks(Notify(id, status)) == [] && ManagerLines(Notify(id, status)) == []
    ensures forall q :: ClientLines(Notify(id, status), q) == if q == id then [status] else []
  {
    var n := Notify(id, status);
    ProjectNone(n, ReceivedBy);
    ProjectNone(n, HookOf);
    ProjectNone(n, ManagerLineOf);
    assert n[1..] == [Close(ClientConn(id))];
    forall q
      ensures ClientLines(n, q) == if q == id then [status] else []
    {
      ClientLinesNone(n[1..], q);
    }
  }

  /** No element occurs twice. */
  predicate NoDup<T(==)>(s: seq<T>) {
    forall i, j :: 0 <= i < j < |s| ==> s[i] != s[j]
  }

  lemma NoDupAppend<T>(a: seq<T>, b: seq<T>)
    requires NoDup(a) && NoDup(b)
    requires forall x :: x in b ==> x !in a
    ensures NoDup(a + b)
  {
    forall i, j | 0 <= i < j < |a + b|
      ensures (a + b)[i] != (a + b)[j]
    {
      if j < |a| {
        assert (a + b)[i] == a[i] && (a + b)[j] == a[j];
      } else if i >= |a| {
        assert (a + b)[i] == b[i - |a|] && (a + b)[j] == b[j - |a|];
      } else {
        assert (a + b)[i] == a[i] && (a + b)[j] == b[j - |a|];
        assert b[j - |a|] in b;
      }
    }
  }

  /** How many times descriptor `d` was closed in `t`. */
  function CloseCount(t: seq<Effect>, d: Desc): nat {
    multiset(Closes(t))[d]
  }

  /** Without duplicates, nothing occurs more than once. */
  lemma {:induction false} NoDupCount<T>(s: seq<T>, x: T)
    requires NoDup(s)
    ensures multiset(s)[x] <= 1
    ensures x in s ==> multiset(s)[x] == 1
  {
    if |s| > 0 {
      var last := s[|s| - 1];
      var init := s[..|s| - 1];
      assert s == init + [last];
      assert last !in init;
      NoDupCount(init, x);
    }
  }
}

=== FILE: worker.dfy ===
/** What a forked worker does before it becomes the command
    (the block passed to `fork` in `Application#serve`). The effects of the
    child process are recorded as an ordered list of actions. */
module Worker {
  import opened Base

  datatype StdStream = Stdout | Stderr | Stdin

  datatype ChildAction =
    | NewSession                               // Process.setsid
    | Rebind(target: StdStream, source: Desc)  // target.reopen(source)
    | DefaultSignal(signal: string)            // trap(signal, "DEFAULT")
    | Reconnect                                // ActiveRecord::Base.establish_connection
    | ReplaceArgv(argv: seq<string>)           // ARGV.replace(argv)
    | Reseed                                   // srand
    | AfterFork(callback: nat)                 // callback.call
    | CallCommand                              // command.call
    | LoadBin(gem: string, exec: string)       // $0 = path; load path, where path is Gem.bin_path(gem, exec)

  /** The process-wide settings the child consults: the signals the master
      ignores, whether ActiveRecord is loaded, and the after-fork callbacks in
      registration order. */
  datatype WorkerConfig = WorkerConfig(ignoreSignals: seq<string>, activeRecord: bool, afterFork: seq<nat>)

  /** The arguments given to `Gem.bin_path` for a command that is not callable:
      the gem name when the command has one, otherwise the executable's name,
      and the executable's name. */
  function BinPathArgs(cmd: Command): (r: (string, string))
    ensures r.1 == cmd.execName
    ensures cmd.hasGemName && cmd.gemName.Some? ==> r.0 == cmd.gemName.value
    ensures !cmd.hasGemName || cmd.gemName.None? ==> r.0 == cmd.execName
  {
    var gemName := if cmd.hasGemName then cmd.gemName else None;
    (match gemName case Some(g) => g case None => cmd.execName, cmd.execName)
  }

  /** The last thing the child does: call the command in process, or load its
      executable. */
  function RunCommand(cmd: Command): (a: ChildAction)
    ensures a.CallCommand? <==> cmd.callable
    ensures !cmd.callable ==> a == LoadBin(BinPathArgs(cmd).0, BinPathArgs(cmd).1)
  {
    if cmd.callable then CallCommand else LoadBin(BinPathArgs(cmd).0, BinPathArgs(cmd).1)
  }

  function ResetSignals(signals: seq<string>): (r: seq<ChildAction>)
    ensures |r| == |signals|
    ensures forall i :: 0 <= i < |r| ==> r[i] == DefaultSignal(signals[i])
  {
    if |signals| == 0 then [] else [DefaultSignal(signals[0])] + ResetSignals(signals[1..])
  }

  /** `invoke_after_fork_callbacks`: every callback, in registration order. */
  function InvokeAfterForkCallbacks(callbacks: seq<nat>): (r: seq<ChildAction>)
    ensures |r| == |callbacks|
    ensures forall i :: 0 <= i < |r| ==> r[i] == AfterFork(callbacks[i])
  {
    if |callbacks| == 0 then [] else [AfterFork(callbacks[0])] + InvokeAfterForkCallbacks(callbacks[1..])
  }

  /** Everything the child does before its callbacks, in this order: a new
      session; standard output, error and input rebound to the received
      streams in that order; every ignored signal reset to its default; a
      fresh database connection when ActiveRecord is loaded; the argument
      vector replaced; randomness reseeded. */
  function Prepare(w: WorkerConfig, streams: seq<Desc>, argv: seq<string>): (r: seq<ChildAction>)
    requires |streams| == 3
    ensures |r| == 6 + |w.ignoreSignals| + (if w.activeRecord then 1 else 0)
    ensures r[0] == NewSession
    ensures r[1..4] == [Rebind(Stdout, streams[0]), Rebind(Stderr, streams[1]), Rebind(Stdin, streams[2])]
    ensures forall i :: 0 <= i < |w.ignoreSignals| ==> r[4 + i] == DefaultSignal(w.ignoreSignals[i])
    ensures w.activeRecord ==> r[4 + |w.ignoreSignals|] == Reconnect
    ensures Reconnect in r <==> w.activeRecord
    ensures r[|r| - 2] == ReplaceArgv(argv) && r[|r| - 1] == Reseed
    ensures forall i :: 0 <= i < |r| ==> !r[i].AfterFork? && !r[i].CallCommand? && !r[i].LoadBin?
  {
    [NewSession]
    + [Rebind(Stdout, streams[0]), Rebind(Stderr, streams[1]), Rebind(Stdin, streams[2])]
    + ResetSignals(w.ignoreSignals)
    + (if w.activeRecord then [Reconnect] else [])
    + [ReplaceArgv(argv), Reseed]
  }

  /** The whole life of the child: preparation, callbacks, the command. */
  function ChildActions(w: WorkerConfig, streams: seq<Desc>, argv: seq<string>, cmd: Command): (r: seq<ChildAction>)
    requires |streams| == 3
    ensures |r| == |Prepare(w, streams, argv)| + |w.afterFork| + 1
    ensures r[..|Prepare(w, streams, argv)|] == Prepare(w, streams, argv)
    ensures r[0] == NewSession
    ensures forall i :: 0 <= i < |w.afterFork| ==> r[|Prepare(w, streams, argv)| + i] == AfterFork(w.afterFork[i])
    ensures r[|r| - 1] == RunCommand(cmd)
  {
    Prepare(w, streams, argv) + InvokeAfterForkCallbacks(w.afterFork) + [RunCommand(cmd)]
  }

  /** The callbacks a list of actions runs, in order. */
  function CallbacksRun(acts: seq<ChildAction>): seq<nat> {
    if |acts| == 0 then []
    else (if acts[0].AfterFork? then [acts[0].callback] else []) + CallbacksRun(acts[1..])
  }

  lemma {:induction false} CallbacksRunAppend(a: seq<ChildAction>, b: seq<ChildAction>)
    ensures CallbacksRun(a + b) == CallbacksRun(a) + CallbacksRun(b)
  {
    if |a| == 0 {
      assert a + b == b;
    } else {
      assert (a + b)[0] == a[0];
      assert (a + b)[1..] == a[1..] + b;
      CallbacksRunAppend(a[1..], b);
      assert CallbacksRun(a + b)
          == (if a[0].AfterFork? then [a[0].callback] else []) + CallbacksRun(a[1..] + b);
    }
  }

  lemma {:induction false} CallbacksRunNone(a: seq<ChildAction>)
    requires forall i :: 0 <= i < |a| ==> !a[i].AfterFork?
    ensures CallbacksRun(a) == []
  {
    if |a| > 0 {
      CallbacksRunNone(a[1..]);
    }
  }

  lemma {:induction false} CallbacksRunInvoke(callbacks: seq<nat>)
    ensures CallbacksRun(InvokeAfterForkCallbacks(callbacks)) == callbacks
  {
    if |callbacks| > 0 {
      var r := InvokeAfterForkCallbacks(callbacks);
      assert r[1..] == InvokeAfterForkCallbacks(callbacks[1..]);
      CallbacksRunInvoke(callbacks[1..]);
    }
  }

  /** The streams are rebound in receive order right after the new session. */
  lemma ChildRebindsInOrder(w: WorkerConfig, streams: seq<Desc>, argv: seq<string>, cmd: Command)
    requires |streams| == 3
    ensures var r := ChildActions(w, streams, argv, cmd);
      && r[0] == NewSession
      && r[1..4] == [Rebind(Stdout, streams[0]), Rebind(Stderr, streams[1]), Rebind(Stdin, streams[2])]
  {
    var p := Prepare(w, streams, argv);
    var r := ChildActions(w, streams, argv, cmd);
    assert r[..|p|] == p;
    assert r[1..4] == p[1..4];
  }

  /** The child runs exactly the registered callbacks, in registration order. */
  lemma ChildRunsCallbacks(w: WorkerConfig, streams: seq<Desc>, argv: seq<string>, cmd: Command)
    requires |streams| == 3
    ensures CallbacksRun(ChildActions(w, streams, argv, cmd)) == w.afterFork
  {
    var p := Prepare(w, streams, argv);
    var cbs := InvokeAfterForkCallbacks(w.afterFork);
    CallbacksRunNone(p);
    CallbacksRunNone([RunCommand(cmd)]);
    CallbacksRunInvoke(w.afterFork);
    CallbacksRunAppend(p, cbs);
    CallbacksRunAppend(p + cbs, [RunCommand(cmd)]);
  }

  /** Exactly the registered callbacks run, in registration order, after the
      argument vector was replaced; the command runs last and only last. */
  lemma ChildCallbacksThenCommand(w: WorkerConfig, streams: seq<Desc>, argv: seq<string>, cmd: Command)
    requires |streams| == 3
    ensures var r := ChildActions(w, streams, argv, cmd);
      && CallbacksRun(r) == w.afterFork
      && ReplaceArgv(argv) in r
      && (forall i, j :: 0 <= i < j < |r| && r[i].AfterFork? ==> !r[j].ReplaceArgv?)
      && r[|r| - 1] == RunCommand(cmd)
      && (forall i :: 0 <= i < |r| - 1 ==> !r[i].CallCommand? && !r[i].LoadBin?)
  {
    var p := Prepare(w, streams, argv);
    var cbs := InvokeAfterForkCallbacks(w.afterFork);
    var r := ChildActions(w, streams, argv, cmd);
    ChildRunsCallbacks(w, streams, argv, cmd);
    assert r[|p| - 2] == ReplaceArgv(argv);
    forall i, j | 0 <= i < j < |r| && r[i].AfterFork?
      ensures !r[j].ReplaceArgv?
    {
      assert i >= |p|;
    }
  }
}
